=== FILE: README.md ===
# Bautilus client logic in Dafny

Bautilus is a browser-extension file manager that talks to a local file
server. This project models the extension's decision logic and proves
properties about it. The page script (`extension/app.js`) contributes:

- the multi-selection state machine: click, Ctrl/Meta toggle, Shift range and Ctrl+Shift range union;
- the back/forward history stacks and the "up" button;
- the filtered and sorted listing;
- the path builders for paste, rename and the breadcrumb bar;
- the bookmark list and the sidebar highlight;
- the icon and editor-language classification;
- the "open with" decision and the dialog's list of choices.

The background worker (`extension/background.js`) contributes:

- the download badge (active count plus byte sums, with the progress fraction kept as an integer pair);
- the update-entry match;
- the rule that leaves `blob:` and `data:` downloads to the browser;
- the one-slot hand-off of a picked file to the tab that requested it.

Everything is written as immutable datatypes and pure functions. The badge's
loops are the one exception: they are a method with loop invariants.

The effects around this logic are parameters:

- The server is a function from the requested path to a `Reply`. A reply is a listing with its current path, an error body, or no reply at all. Each navigation asks the server about the path it requests. After an error body the page's current path is undefined, and the model writes `""` for it; both are falsy, which is all the navigation code tests.
- The fetched update list is `Option<seq<UpdateEntry>>`.
- Stored preferences are a `map`.
- The locale collation of names is an abstract total preorder `nameLeq`.

Modules, one file each:

| file | module | models |
|---|---|---|
| `common.dfy` | `Common` | `Option` |
| `text.dfy` | `Text` | ASCII lower-casing, `includes`, `lastIndexOf`, splitting on `/` and `\`, decimal rendering |
| `files.dfy` | `Files` | the listing entry and the lookup by path |
| `selection.dfy` | `Selection` | `selectFile` |
| `navigation.dfy` | `Navigation` | `navigateTo`, back, forward, up |
| `paths.dfy` | `Paths` | parent directory, root test, paste destination, rename target |
| `breadcrumbs.dfy` | `Breadcrumbs` | `renderBreadcrumbs` |
| `listing.dfy` | `Listing` | the filter and comparator of `render` |
| `bookmarks.dfy` | `Bookmarks` | bookmark add/remove and `updateActiveBookmark` |
| `icons.dfy` | `Icons` | `getAdwaitaIcon`, `getMonacoLanguage` |
| `openwith.dfy` | `OpenWith` | `INTERNAL_VIEWERS`, `handleFileOpen`, `showOpenWithModal`, `executeOpenWith`, `savePreference` |
| `badge.dfy` | `Badge` | `updateActionIcon` |
| `updates.dfy` | `Updates` | `checkUpdates` |
| `messages.dfy` | `Messages` | the picker hand-off and `onDeterminingFilename` |

## Model

| member | source | states |
|---|---|---|
| Files.IndexOfPath | extension/app.js:176 | the index of the first shown entry with the clicked path, or -1 exactly when no entry has that path |
| Selection.SelectFile | extension/app.js:175-211 | an unshown file changes nothing. A plain click selects exactly `[file]` and anchors at its index. Ctrl/Meta toggles by path and re-anchors. Shift with an anchor keeps the anchor and takes the inclusive slice, cut at the end of the shown list when a stale anchor lies past it; with Ctrl/Meta it joins that range to the selection, appending only entries of the range. The focused entry is always the last selected one |
| Selection.Toggle | extension/app.js:195-203 | removes the first entry with the file's path, keeping all others in order, or appends the file when the path was not selected |
| Selection.Range | extension/app.js:179-182 | the entries from min(anchor, idx) to max(anchor, idx) inclusive, clamped to the shown list as `slice` does |
| Selection.Slice | extension/app.js:182 | JavaScript `slice` with non-negative bounds: the in-range elements in order, the length clamped to the list |
| Selection.AddMissing | extension/app.js:187-193 | the selection is kept, unchanged, as a prefix of the result |
| Selection.AddMissingAppendsNew | extension/app.js:189-193 | every appended entry comes from the range and has a path the selection did not have |
| Selection.AddMissingCovers | extension/app.js:189-193 | afterwards every path of the range is selected |
| Selection.AddMissingDistinct | extension/app.js:189-193 | a selection with distinct paths keeps them distinct |
| Selection.Focus | extension/app.js:211 | the focused entry is the last of the new selection, none when it is empty |
| Selection.UnionWithinListing | extension/app.js:187-193 | a union of shown entries with a shown range holds only shown entries |
| Selection.RangeUnion | extension/app.js:187-193 | Ctrl+Shift: the old selection is a prefix, every appended entry is an entry of the inclusive range, every path of the range is selected afterwards, no appended entry repeats an old path, and distinct paths stay distinct. The result is the old selection with each entry of the range, in range order, appended when its path is not yet selected |
| Selection.AddMissingOne | extension/app.js:189-192 | one step of the range loop: an entry whose path is selected changes nothing, any other is appended at the end |
| Selection.AddMissingAppend | extension/app.js:189-193 | adding two consecutive runs of entries is adding the first run and then the second, so the entries are appended in the order of the shown list |
| Selection.ShiftSelect | extension/app.js:179-193 | a Shift click selects the shown entries from the anchor to the clicked index, cut at the end of the list; with Ctrl/Meta that range joins the selection as `RangeUnion` states, the new entries in range order |
| Selection.SelectionKeepsPathsDistinct | extension/app.js:175-211 | no click ever makes two selected entries share a path |
| Selection.SelectionStaysWithinListing | extension/app.js:175-211 | if every selected path is shown before a click, it is after |
| Selection.CtrlClickTwiceRestores | extension/app.js:195-203 | Ctrl-clicking an unselected shown file twice restores the selected list |
| Selection.AnchorStaysInRange | extension/app.js:176-207 | a click leaves the anchor -1 or a valid index of the shown list |
| Selection.ToggleDistinct | extension/app.js:195-203 | toggling keeps selected paths distinct |
| Selection.RangeDistinct | extension/app.js:182 | a range of a list with distinct paths has distinct paths |
| Navigation.Landing | extension/app.js:84-92 | the page's path after a listing request: a listing's path becomes current, and the path is empty (falsy) exactly when an error body arrived, the listing's path is empty, or no reply came and it was already empty |
| Navigation.NavigateTo | extension/app.js:73-88 | with history, a non-empty current path is pushed on the back stack and the forward stack is emptied. Without history both stacks are untouched. The selection is cleared. The current path becomes the path of the listing the server returns for the requested path, becomes empty after an error body, and stays when no reply came |
| Navigation.Back | extension/app.js:302 | with an empty back stack nothing changes; otherwise the current path is pushed on the forward stack, the back stack is popped, and the current path becomes what the server answers for the popped path |
| Navigation.Forward | extension/app.js:303 | with an empty forward stack nothing changes; otherwise the current path is pushed on the back stack, the forward stack is popped, and the current path becomes what the server answers for the popped path |
| Navigation.Up | extension/app.js:98-99 | at a root (the button is disabled) or without a separator nothing changes; otherwise the current path is pushed on the back stack, the forward stack is emptied and the current path becomes what the server answers for the parent path |
| Navigation.UpAtRootStays | extension/app.js:98-99 | at `/` or a drive root `X:\` the up button changes nothing |
| Navigation.ErrorReplyLosesPlace | extension/app.js:74-88 | after an error body the current path is empty; the next history navigation pushes nothing on the back stack, and back pushes the empty path on the forward stack |
| Navigation.BackVisitsTop | extension/app.js:302 | with an echoing server, back lands on the popped path |
| Navigation.ForwardVisitsTop | extension/app.js:303 | with an echoing server, forward lands on the popped path |
| Navigation.UpVisitsParent | extension/app.js:304-310 | away from a root and with a separator, up with an echoing server lands on the parent directory and pushes the old path on the back stack |
| Navigation.BackThenForward | extension/app.js:302-303 | with one echoing server for both steps, back then forward restores the current path and both stacks |
| Navigation.ForwardThenBack | extension/app.js:302-303 | with one echoing server for both steps, forward then back restores the current path and both stacks |
| Navigation.NavigateThenBack | extension/app.js:73-75 | with an echoing server, visiting a directory and pressing back returns to the previous path and leaves only the visited path on the forward stack |
| Navigation.StacksStayNonEmpty | extension/app.js:302-303 | back and forward from a non-empty path keep every stacked path non-empty, and the current path stays non-empty unless the server answers with an error body |
| Paths.BeforeFirst | extension/app.js:307 | `split('\\')[0]`: a prefix of the path with no backslash, followed in the path by a backslash unless it is the whole path |
| Paths.ParentDir | extension/app.js:304-310 | no parent exactly when the path has no separator. Ordinarily, the proper prefix before the last separator. A drive prefix `X:` becomes `X:\`. A path whose only separator leads it climbs to `/`, or, when it has a colon, to the text before its first `\` followed by `\` |
| Paths.IsRoot | extension/app.js:98 | the toolbar's root test as written: empty, `/`, or at most three characters including a colon (definition, no contract) |
| Paths.RootIsOwnParent | extension/app.js:98 | `/` and `X:\` are roots for the up button and are their own parents |
| Paths.StyleSep | extension/app.js:345 | `\` exactly when the path contains a backslash, else `/` |
| Paths.PasteDest | extension/app.js:345-347 | the current path, exactly one separator in its style, then the source's last component |
| Paths.PasteKeepsName | extension/app.js:347 | the pasted entry's last component is the source's last component |
| Paths.UpUndoesPaste | extension/app.js:304-310 | going up from a pasted entry returns to the directory it was pasted into |
| Paths.DirPart | extension/app.js:383 | the prefix up to and including the last separator of the path's style, with no such separator after it |
| Paths.RenameTarget | extension/app.js:382-383 | the old directory part followed by the new name |
| Paths.RenameToSameName | extension/app.js:383 | renaming to the current name leaves the path unchanged |
| Paths.RenameTwice | extension/app.js:382-383 | a second rename to a separator-free name replaces the first |
| Text.LastSepIndex | extension/app.js:305 | the position of the last `/` or `\`, with no separator after it, -1 exactly when there is none |
| Text.SplitSeps | extension/app.js:258 | a split yields at least one piece; the pieces are characterised by the lemmas below |
| Text.PiecesHaveNoSep | extension/app.js:258 | no piece of a split on `/` and `\` holds a separator |
| Text.SinglePiece | extension/app.js:258 | a string splits into one piece exactly when it has no separator, and that piece is the string itself |
| Text.SplitCount | extension/app.js:258 | the split keeps empty pieces: one more piece than the string has separators |
| Text.SplitPrefix | extension/app.js:258 | a separator-free prefix lengthens the first piece and leaves the others |
| Text.SplitJoin | extension/app.js:258 | splitting separator-free pieces joined by a separator gives the pieces back |
| Text.LastPiece | extension/app.js:347 | `split(...).pop()`: a separator-free suffix of the path |
| Text.BaseNameAfterLastSep | extension/app.js:347 | the last piece is exactly what follows the last separator |
| Text.LastIndexOf | extension/app.js:306 | the last position of the character, -1 exactly when it is absent |
| Text.Contains | extension/app.js:112 | `includes` holds exactly when the text occurs at some position |
| Text.ToLower | extension/app.js:111 | same length, every upper-case ASCII letter becomes its lower-case letter (32 code points on), other characters unchanged |
| Text.NatToString | extension/background.js:65 | decimal digits without leading zero whose value is the number |
| Breadcrumbs.NonEmptyPieces | extension/app.js:258 | every kept piece is a non-empty piece of the list, and the list itself is kept when no piece is empty |
| Breadcrumbs.NonEmptyPiecesCounts | extension/app.js:258 | no empty piece is kept, and every non-empty piece is kept as many times as it occurs |
| Breadcrumbs.NonEmptyPiecesAppend | extension/app.js:258 | the filter distributes over concatenation, so the kept pieces stay in order |
| Breadcrumbs.Components | extension/app.js:258 | non-empty, separator-free pieces, each occurring as often as it is a piece of the split |
| Breadcrumbs.Trail | extension/app.js:269-278 | one button per component |
| Breadcrumbs.Step | extension/app.js:276 | the running path is a prefix and the component a suffix of the new path; between them stands nothing when the running path ends with a separator, otherwise exactly one separator of the platform |
| Breadcrumbs.TrailSteps | extension/app.js:276 | each button's target is exactly the previous target (the running path, for the first button) followed by its component, with the platform's separator in between unless the previous target already ends with a separator |
| Breadcrumbs.TrailCaptions | extension/app.js:272-277 | each button is captioned with its component, and its target ends with that component |
| Breadcrumbs.TrailExtends | extension/app.js:276 | each button's target strictly extends the previous one's |
| Breadcrumbs.Crumbs | extension/app.js:254-281 | without a colon: the `/` root button, then one button per component. With a colon: the drive-root button `X:\`, then one per later component |
| Breadcrumbs.CrumbTargets | extension/app.js:269-277 | every button after the root or drive button navigates to the previous button's path joined to its own caption, with the platform's separator unless that path already ends with one |
| Breadcrumbs.CrumbCaptions | extension/app.js:254-281 | after the root button, the buttons are captioned with the components in order (after the drive, on a path with a colon) |
| Breadcrumbs.PosixLastCrumbIsPath | extension/app.js:268-278 | for `/a/b/c` the last button navigates to `/a/b/c` |
| Breadcrumbs.WindowsLastCrumbIsPath | extension/app.js:266-278 | for `X:\a\b`, or a bare `X:\`, the last button navigates back to that path |
| Listing.Matches | extension/app.js:112 | an entry matches when its lower-cased name contains the lower-cased query (definition, no contract) |
| Listing.Before | extension/app.js:114-119 | the comparator as an ordering: directories first, then newer first, larger first, or `nameLeq` order (definition; its totality and transitivity are proved lemmas) |
| Listing.KeyOf | extension/app.js:116-118 | `date` and `size` select their keys; every other value sorts by name |
| Listing.Filter | extension/app.js:112 | each entry is kept, with its multiplicity, exactly when its lower-cased name contains the lower-cased query |
| Listing.FilterEmptyQuery | extension/app.js:112 | an empty search keeps the whole listing |
| Listing.FilterIgnoresQueryCase | extension/app.js:111 | lower-casing the query does not change the result |
| Listing.Insert | extension/app.js:114-119 | inserting into a sorted list gives a sorted list with one more occurrence of the entry |
| Listing.Sort | extension/app.js:114-119 | a permutation in which every entry may precede every later one under the comparator |
| Listing.Shown | extension/app.js:111-119 | the shown list is a sorted permutation of exactly the matching entries |
| Listing.DirectoriesFirst | extension/app.js:115 | in a sorted list every directory precedes every non-directory |
| Listing.OrderWithinKind | extension/app.js:116-118 | among entries of one kind: newer first by date, larger first by size, otherwise name order |
| Listing.ShownListing | extension/app.js:111-119 | shown entries match and come from the listing, every matching entry is shown, directories come first |
| Bookmarks.AddSelected | extension/app.js:365-374 | only with exactly one selected directory: afterwards its path is bookmarked. The list is unchanged if the path already was; otherwise one bookmark is appended. Distinct paths stay distinct |
| Bookmarks.Remove | extension/app.js:855 | afterwards no bookmark has the path, and a bookmark is in the result exactly when it was in the list with another path |
| Bookmarks.RemoveCounts | extension/app.js:855 | each bookmark with another path is kept as many times as it occurs; none with the path is kept |
| Bookmarks.RemoveAppend | extension/app.js:855 | removal distributes over concatenation, so the kept bookmarks stay in order |
| Bookmarks.RemoveUndoesAdd | extension/app.js:855 | removing a just-added bookmark restores the list |
| Bookmarks.RemoveAbsent | extension/app.js:855 | removing a path that is not bookmarked changes nothing |
| Bookmarks.StripTrailingSep | extension/app.js:865 | `replace(/[\\\/]$/, '')`: a path ending in a separator loses exactly that one character, any other path is unchanged |
| Bookmarks.Norm | extension/app.js:865 | the comparison key: one trailing separator dropped, then lower-cased (definition, no contract) |
| Bookmarks.Active | extension/app.js:866-869 | an entry is highlighted when its path is non-empty and has the current path's key (definition, no contract) |
| Bookmarks.ActiveIgnoresTrailingSep | extension/app.js:865-869 | one trailing `/` or `\` does not change the sidebar highlight |
| Bookmarks.ActiveIgnoresCase | extension/app.js:865-869 | letter case does not change the sidebar highlight |
| Bookmarks.OnlyOneSepStripped | extension/app.js:865 | only one trailing separator is dropped: a path ending in two separators is not highlighted for the path without them |
| Icons.AdwaitaIcon | extension/app.js:283-299 | directories, and only directories, get a folder icon. A name containing `desk` gets the desktop icon. Video extensions get the video icon |
| Icons.IconIgnoresCase | extension/app.js:285 | the icon does not depend on the letter case of name or extension |
| Icons.FolderIconOrder | extension/app.js:284-289 | a folder name containing `desk` gets the desktop icon; otherwise one containing `doc` gets the documents icon; otherwise one containing `down` gets the downloads icon; any other folder gets the plain folder icon |
| Icons.ExtensionListsDisjoint | extension/app.js:292-297 | the extension lists are disjoint, so test order does not matter to a file |
| Icons.MonacoLanguage | extension/app.js:779-782 | the table's language for the lower-cased extension, `plaintext` for any other |
| Icons.LanguageIgnoresCase | extension/app.js:781 | upper-case extensions get the same language |
| Icons.CodeIconHasLanguage | extension/app.js:297 | every file with the code icon gets a highlighted editor language |
| OpenWith.Compatible | extension/app.js:499 | the filter keeps at most every viewer; which ones it keeps is stated by `CompatibleMembers` and `CompatibleCounts` |
| OpenWith.CompatibleCounts | extension/app.js:499 | each viewer that accepts the extension is kept as many times as it occurs in the table, and no other viewer is kept |
| OpenWith.CompatibleMembers | extension/app.js:499 | the compatible viewers are exactly the table's viewers that accept the extension |
| OpenWith.ViewerIds | extension/app.js:25-32 | the keys of the viewer table, in order, are its viewers' identifiers |
| OpenWith.CompatibleIdsKnown | extension/app.js:499 | every compatible viewer's identifier is a key of the viewer table |
| OpenWith.OptionsRunnable | extension/app.js:541-567 | a list of viewer keys completed by the dialog holds only choices that run |
| OpenWith.CompatibleAppend | extension/app.js:499 | the filter distributes over concatenation, so table order is kept |
| OpenWith.Options | extension/app.js:555-567 | the compatible viewers, then `browser`, then `system`, then `code` only when it is not already listed |
| OpenWith.CodeOfferedOnce | extension/app.js:565-567 | for every extension the dialog offers the code editor exactly once |
| OpenWith.Preference | extension/app.js:492 | the stored choice for the extension, the empty string when there is none (definition, no contract) |
| OpenWith.HandleFileOpen | extension/app.js:486-511 | a non-empty remembered choice runs unless the dialog is forced. Otherwise the dialog lists the compatible viewers in all three branches |
| OpenWith.SavePreference | extension/app.js:40-44 | the choice is stored under the lower-cased extension; other extensions are untouched |
| OpenWith.RememberedChoiceRuns | extension/app.js:494-496 | after "always open with", the next open of that extension in any letter case runs the choice |
| OpenWith.ForcedAlwaysAsks | extension/app.js:508-510 | a forced open always shows the dialog, which always offers the browser |
| OpenWith.ExecuteOpenWith | extension/app.js:513-527 | an internal viewer exactly for viewer ids, the browser tab, the system default, and the not-found error for anything else |
| OpenWith.OfferedChoicesRun | extension/app.js:541-567 | no offered choice ends in the not-found error |
| OpenWith.ViewerAgreesWithIcon | extension/app.js:25-29 | files the image, video, audio, PDF and ZIP viewers accept show that kind's icon |
| Icons.IconOfKind | extension/app.js:291-298 | a file whose lower-cased extension is in the PDF, image, audio, video or archive list gets that kind's icon. One in the code list gets the code icon, and any other extension gets the text icon |
| Badge.UpdateActionIcon | extension/background.js:50-76 | the badge is cleared exactly when no record is downloading. Otherwise its text is the decimal count of downloading records, without a leading zero, and the sums run over those of known size |
| Badge.Active | extension/background.js:51 | the filter keeps at most every record; what it keeps is stated by `ActiveMembers` |
| Badge.ActiveMembers | extension/background.js:51 | the kept records are exactly the downloading ones, each as many times as it occurs, so their number is the number of downloading records |
| Badge.CollectActive | extension/background.js:51 | the filter loop keeps the downloading records in order |
| Badge.SumKnown | extension/background.js:69-75 | the summing loop adds expected and received bytes over the records of known size |
| Badge.SumsAppend | extension/background.js:69-75 | the sums over a list are the sums over its parts |
| Badge.Progress | extension/background.js:78 | the fraction received/total, 0/1 when no total is known |
| Badge.ProgressWithinUnit | extension/background.js:69-78 | the fraction lies in [0, 1] when every counted record is within its size |
| Badge.UncountedAddsNothing | extension/background.js:71-75 | a record that is not downloading, or of unknown size, changes neither sum |
| Badge.CountedAddsItsBytes | extension/background.js:71-75 | a downloading record of known size adds exactly its bytes to each sum |
| Badge.NoneActive | extension/background.js:51-54 | no downloading records exactly when no record is downloading |
| Updates.CurrentId | extension/background.js:16 | `bautilus-v` followed by the version |
| Updates.FirstWithId | extension/background.js:20 | the index of the first entry with the identifier, or -1 when none has it |
| Updates.FindEntry | extension/background.js:20 | the first entry with the identifier, none exactly when no entry has it |
| Updates.CheckUpdates | extension/background.js:10-31 | a failed check keeps the stored record. A successful one stores the first entry whose identifier is this version's, or removes the record when there is none |
| Updates.FirstEntryWins | extension/background.js:20 | of two entries with this version's identifier, the earlier one is stored |
| Updates.StaleRecordRemoved | extension/background.js:25-27 | a stored record never survives a successful check that finds no entry |
| Updates.OtherVersionIgnored | extension/background.js:16-20 | an entry for another version is never chosen |
| Messages.Step | extension/background.js:152-192 | `open_picker` records the sender tab. A selection delivers exactly when a non-zero tab id is recorded, and then empties the slot. Otherwise the slot is kept |
| Messages.SecondSelectionIgnored | extension/background.js:163-187 | a second selection without a new request delivers nothing |
| Messages.RequestThenSelect | extension/background.js:152-187 | a request followed by a selection delivers to the requesting tab unless its id is 0 |
| Messages.DeliveriesBounded | extension/background.js:152-192 | over any run of messages, each request is answered at most once, and every delivery goes to a tab that asked |
| Messages.Intercept | extension/background.js:229-264 | a download is left to the browser exactly when its URL starts with `blob:` or `data:`. Any other is cancelled and handed to the save dialog with its file name and URL |
| Messages.SchemesLeftAlone | extension/background.js:232-236 | every `blob:` and `data:` URL is left alone; an `https:` URL is taken over |

## Left out

- `server/index.js`: the local file server. Its routes wrap file-system, archive and process libraries with no logic of their own. The download-progress endpoints the worker polls are not part of this model.
- `extension/content.js`: DOM event capture and the browser's base64 decoding.
- The base64 encoding of the picked file: it rests on the browser's `btoa`.
- `formatSize`: floating-point logarithms and rounding.
- Thumbnails, the thumbnail cache, the viewers themselves (image, PDF, ZIP, audio, video, editor) and the canvas drawing of the progress ring: graphics and foreign libraries.
- All requests, extension storage, windows, alarms and DOM updates. Their results are parameters or are dropped; the order in which asynchronous callbacks run is not modelled.
- The parallel paste and delete requests (`Promise.all`): concurrency. Only the destination path of each paste is modelled.
- `localeCompare`: a collation order is abstract here, as the total preorder `nameLeq`.
- Listing.Sort: the model does not state stability. `Array.prototype.sort` is stable, but entries the comparator ties may appear here in a different order.
- `toLowerCase`: only ASCII letters are folded. Other Unicode case mappings are out of scope.
- Listing.Before: dates are integers in milliseconds. Unparsable dates, which make the JavaScript comparator return `NaN`, are out of scope.
- The HTML escaping of names and the URL encoding of paths in requests: string encodings outside the decision logic.
- OpenWith.ExecuteOpenWith: an identifier such as `toString` that JavaScript finds on every object is not treated as a viewer.
- Messages.Step: parsing the tab id with `parseInt`, a missing sender tab, and the closing of the picker window are left out. A delivery is the decision to send; the file fetch that precedes the send can still fail, and the slot is emptied all the same.
- Messages.Intercept: the 100 ms delay before cancelling and the erasing of the download entry are timing and browser effects.
- Navigation.NavigateTo: the history update, clearing of the selection and the listing request happen in that order, as in the code. A request with no reply therefore leaves the stacks changed and the current path as it was. After an error body the page's current path is undefined; the model writes `""` for it. The program would then request the literal path `undefined` for it; the model requests `""`. The exception `render` throws in that case, and the button states it then leaves stale, are not modelled.
- Text.SplitSeps: its own contract only says that there is at least one piece. The pieces are described by `PiecesHaveNoSep`, `SinglePiece`, `SplitCount`, `SplitPrefix` and `SplitJoin`, which are kept apart so that every use of the split stays cheap to verify.
- OpenWith.Compatible: its own contract bounds only the length. `CompatibleMembers` and `CompatibleCounts` state what it keeps; they are kept apart because every fact attached to the filter is re-examined wherever the literal viewer table is used.
- Badge.Active: its own contract bounds only the length. `ActiveMembers` states which records are kept and how often; it is kept apart so that the filter loop's proof stays small.
- Breadcrumbs.Crumbs: a path counts as a Windows path whenever it contains a colon, as the code decides, including a POSIX path with a colon in a name.
- Paths.IsRoot: modelled as written, a short path containing a colon is treated as a root.
- Badge.UpdateActionIcon: the colour and icon images set on the badge are left out.
- Updates.CheckUpdates: the cache-busting timestamp and the console messages are left out.

=== FILE: badge.dfy ===
/**
  The toolbar badge of the background worker: from the download records the
  server reports, the number of active downloads shown as text, and the bytes
  received out of the bytes expected over the active downloads whose size is
  known. The progress fraction is kept as a pair of integers.
 */
module Badge {
  import opened Text

  /** A download record as polled from the server; `total` is 0 when the size is unknown. */
  datatype Download = Download(status: string, total: int, received: int)

  predicate IsActive(d: Download) {
    d.status == "downloading"
  }

  /** An active download whose size is known takes part in the progress sums. */
  predicate Counted(d: Download) {
    IsActive(d) && d.total > 0
  }

  /** The active downloads, in order. */
  function Active(ds: seq<Download>): (r: seq<Download>)
    ensures |r| <= |ds|
  {
    if |ds| == 0 then []
    else if IsActive(ds[|ds| - 1]) then Active(ds[..|ds| - 1]) + [ds[|ds| - 1]]
    else Active(ds[..|ds| - 1])
  }

  /**
    The active downloads are exactly the records that are active, each as many
    times as it occurs, so their number is the number of active records.
   */
  lemma {:induction false} ActiveMembers(ds: seq<Download>)
    ensures forall k :: 0 <= k < |Active(ds)| ==> Active(ds)[k] in ds && IsActive(Active(ds)[k])
    ensures forall d :: d in ds && IsActive(d) ==> d in Active(ds)
    ensures forall d :: multiset(Active(ds))[d] == if IsActive(d) then multiset(ds)[d] else 0
    decreases |ds|
  {
    if |ds| > 0 {
      var init := ds[..|ds| - 1];
      var last := ds[|ds| - 1];
      ActiveMembers(init);
      assert ds == init + [last];
      assert multiset(ds) == multiset(init) + multiset{last};
      assert forall d :: d in ds ==> d in init || d == last;
    }
  }

  /** Expected bytes summed over the records whose size is known. */
  function KnownTotal(ds: seq<Download>): int {
    if |ds| == 0 then 0
    else KnownTotal(ds[..|ds| - 1]) + (if ds[|ds| - 1].total > 0 then ds[|ds| - 1].total else 0)
  }

  /** Received bytes summed over the records whose size is known. */
  function KnownReceived(ds: seq<Download>): int {
    if |ds| == 0 then 0
    else KnownReceived(ds[..|ds| - 1]) + (if ds[|ds| - 1].total > 0 then ds[|ds| - 1].received else 0)
  }

  /** The badge: nothing shown, or the count text with the byte sums for the progress ring. */
  datatype Icon = Idle | Busy(text: string, totalBytes: int, receivedBytes: int)

  /** The filter loop of `updateActionIcon`. */
  method CollectActive(ds: seq<Download>) returns (downloading: seq<Download>)
    ensures downloading == Active(ds)
  {
    downloading := [];
    var i := 0;
    while i < |ds|
      invariant 0 <= i <= |ds|
      invariant downloading == Active(ds[..i])
    {
      ActiveStep(ds, i);
      if IsActive(ds[i]) {
        downloading := downloading + [ds[i]];
      }
      i := i + 1;
    }
    assert ds[..|ds|] == ds;
  }

  /** Filtering one more record of a prefix. */
  lemma ActiveStep(ds: seq<Download>, i: nat)
    requires i < |ds|
    ensures Active(ds[..i + 1]) == Active(ds[..i]) + (if IsActive(ds[i]) then [ds[i]] else [])
  {
    assert ds[..i + 1][..i] == ds[..i];
  }

  /** The summing loop of `updateActionIcon`. */
  method SumKnown(downloading: seq<Download>) returns (totalBytes: int, receivedBytes: int)
    ensures totalBytes == KnownTotal(downloading)
    ensures receivedBytes == KnownReceived(downloading)
  {
    totalBytes := 0;
    receivedBytes := 0;
    var j := 0;
    while j < |downloading|
      invariant 0 <= j <= |downloading|
      invariant totalBytes == KnownTotal(downloading[..j])
      invariant receivedBytes == KnownReceived(downloading[..j])
    {
      assert downloading[..j + 1][..j] == downloading[..j];
      var d := downloading[j];
      if d.total > 0 {
        totalBytes := totalBytes + d.total;
        receivedBytes := receivedBytes + d.received;
      }
      j := j + 1;
    }
    assert downloading[..|downloading|] == downloading;
  }

  /** There are no active records exactly when no record is active. */
  lemma NoneActive(ds: seq<Download>)
    ensures |Active(ds)| == 0 <==> forall k :: 0 <= k < |ds| ==> !IsActive(ds[k])
  {
    ActiveMembers(ds);
    if |Active(ds)| == 0 {
      forall k | 0 <= k < |ds| ensures !IsActive(ds[k]) {
        assert ds[k] in ds;
      }
    } else {
      var a := Active(ds);
      assert a[0] in ds;
    }
  }

  /**
    `updateActionIcon`: keep the active records; with none the badge is cleared,
    otherwise it shows their number and the sums over those of known size.
   */
  method UpdateActionIcon(ds: seq<Download>) returns (icon: Icon)
    ensures icon.Idle? <==> forall k :: 0 <= k < |ds| ==> !IsActive(ds[k])
    ensures icon.Busy? ==>
      && icon.text != ""
      && AllDigits(icon.text)
      && (|icon.text| > 1 ==> icon.text[0] != '0')
      && DecimalValue(icon.text) == |Active(ds)|
      && icon.totalBytes == KnownTotal(Active(ds))
      && icon.receivedBytes == KnownReceived(Active(ds))
  {
    var downloading := CollectActive(ds);
    var count := |downloading|;
    NoneActive(ds);
    if count == 0 {
      return Idle;
    }
    var totalBytes, receivedBytes := SumKnown(downloading);
    icon := Busy(NatToString(count), totalBytes, receivedBytes);
  }

  /** The progress fraction `received / total` as a pair, `0 / 1` when nothing has a known size. */
  function Progress(totalBytes: int, receivedBytes: int): (frac: (int, int))
    ensures frac.1 > 0
    ensures totalBytes > 0 ==> frac == (receivedBytes, totalBytes)
    ensures totalBytes <= 0 ==> frac.0 == 0
  {
    if totalBytes > 0 then (receivedBytes, totalBytes) else (0, 1)
  }

  /** Records of unknown size and records that are not active add nothing to the sums. */
  lemma UncountedAddsNothing(ds: seq<Download>, d: Download)
    requires !Counted(d)
    ensures KnownTotal(Active(ds + [d])) == KnownTotal(Active(ds))
    ensures KnownReceived(Active(ds + [d])) == KnownReceived(Active(ds))
  {
    assert (ds + [d])[..|ds|] == ds;
  }

  /** An active record of known size adds exactly its own bytes to the sums. */
  lemma CountedAddsItsBytes(ds: seq<Download>, d: Download)
    requires Counted(d)
    ensures KnownTotal(Active(ds + [d])) == KnownTotal(Active(ds)) + d.total
    ensures KnownReceived(Active(ds + [d])) == KnownReceived(Active(ds)) + d.received
  {
    assert (ds + [d])[..|ds|] == ds;
  }

  /** The sums over a list are the sums over its parts. */
  lemma {:induction false} SumsAppend(a: seq<Download>, b: seq<Download>)
    ensures KnownTotal(a + b) == KnownTotal(a) + KnownTotal(b)
    ensures KnownReceived(a + b) == KnownReceived(a) + KnownReceived(b)
    decreases |b|
  {
    if |b| > 0 {
      var b' := b[..|b| - 1];
      assert (a + b)[..|a + b| - 1] == a + b';
      assert (a + b)[|a + b| - 1] == b[|b| - 1];
      SumsAppend(a, b');
    } else {
      assert a + b == a;
    }
  }

  /** When no counted record has received more than it expects, the sums stay ordered. */
  lemma {:induction false} SumsOrdered(ds: seq<Download>)
    requires forall k :: 0 <= k < |ds| && ds[k].total > 0 ==> 0 <= ds[k].received <= ds[k].total
    ensures 0 <= KnownReceived(ds) <= KnownTotal(ds)
    decreases |ds|
  {
    if |ds| > 0 {
      var init := ds[..|ds| - 1];
      assert forall k :: 0 <= k < |init| ==> init[k] == ds[k];
      SumsOrdered(init);
    }
  }

  /** The progress fraction lies in [0, 1] when every counted record is within its size. */
  lemma ProgressWithinUnit(ds: seq<Download>)
    requires forall k :: 0 <= k < |ds| && Counted(ds[k]) ==> 0 <= ds[k].received <= ds[k].total
    ensures var frac := Progress(KnownTotal(Active(ds)), KnownReceived(Active(ds)));
      0 <= frac.0 <= frac.1
  {
    var a := Active(ds);
    ActiveMembers(ds);
    forall k | 0 <= k < |a| && a[k].total > 0 ensures 0 <= a[k].received <= a[k].total {
      var j :| 0 <= j < |ds| && ds[j] == a[k];
    }
    SumsOrdered(a);
  }
}

=== FILE: bookmarks.dfy ===
/**
  The user's bookmarks: a list of (name, path) pairs kept in extension storage,
  the bookmark button that adds the selected directory, the remove button, and
  the sidebar highlight that compares paths ignoring case and one trailing
  separator.
 */
module Bookmarks {
  import opened Text
  import opened Files

  datatype Bookmark = Bookmark(name: string, path: string)

  /** Some bookmark has the given path. */
  predicate Bookmarked(list: seq<Bookmark>, path: string) {
    exists i :: 0 <= i < |list| && list[i].path == path
  }

  /** No two bookmarks share a path. */
  predicate DistinctBookmarks(list: seq<Bookmark>) {
    forall i, j :: 0 <= i < j < |list| ==> list[i].path != list[j].path
  }

  /**
    The bookmark button: only with exactly one selected entry, which is a
    directory whose path is not yet bookmarked, is a bookmark appended.
   */
  function AddSelected(list: seq<Bookmark>, selected: seq<FileEntry>): (r: seq<Bookmark>)
    ensures (|selected| != 1 || !selected[0].isDirectory) ==> r == list
    ensures |selected| == 1 && selected[0].isDirectory ==>
      var f := selected[0];
      && Bookmarked(r, f.path)
      && (Bookmarked(list, f.path) ==> r == list)
      && (!Bookmarked(list, f.path) ==> r == list + [Bookmark(f.name, f.path)])
    ensures DistinctBookmarks(list) ==> DistinctBookmarks(r)
  {
    if |selected| != 1 || !selected[0].isDirectory then list
    else
      var f := selected[0];
      if Bookmarked(list, f.path) then list
      else
        var r := list + [Bookmark(f.name, f.path)];
        assert r[|list|].path == f.path;
        r
  }

  /** The remove button: every bookmark with that path goes, the others keep their order. */
  function Remove(list: seq<Bookmark>, path: string): (r: seq<Bookmark>)
    ensures !Bookmarked(r, path)
    ensures forall b :: b in r <==> b in list && b.path != path
    ensures |r| <= |list|
  {
    if |list| == 0 then []
    else
      var rest := Remove(list[1..], path);
      assert forall b :: b in list <==> b == list[0] || b in list[1..];
      if list[0].path == path then rest else [list[0]] + rest
  }

  /** Every bookmark without that path is kept as many times as it occurs; none with it is. */
  lemma {:induction false} RemoveCounts(list: seq<Bookmark>, path: string)
    ensures forall b :: multiset(Remove(list, path))[b] == if b.path == path then 0 else multiset(list)[b]
    decreases |list|
  {
    if |list| > 0 {
      RemoveCounts(list[1..], path);
      assert list == [list[0]] + list[1..];
      assert multiset(list) == multiset{list[0]} + multiset(list[1..]);
    }
  }

  /** Re-bracketing a list built from a head and two parts. */
  lemma Regroup<T>(h: seq<T>, whole: seq<T>, tail: seq<T>, r1: seq<T>, r2: seq<T>, front: seq<T>)
    requires whole == h + tail && tail == r1 + r2 && front == h + r1
    ensures whole == front + r2
  {
    assert h + (r1 + r2) == (h + r1) + r2;
  }

  /** Removal one bookmark at a time. */
  lemma RemoveCons(x: Bookmark, rest: seq<Bookmark>, path: string)
    ensures Remove([x] + rest, path) == (if x.path == path then [] else [x]) + Remove(rest, path)
  {
    assert ([x] + rest)[1..] == rest;
  }

  /** Removing from a concatenation removes from each part: the kept bookmarks stay in order. */
  lemma {:induction false} RemoveAppend(a: seq<Bookmark>, c: seq<Bookmark>, path: string)
    ensures Remove(a + c, path) == Remove(a, path) + Remove(c, path)
    decreases |a|
  {
    if |a| > 0 {
      var x, rest := a[0], a[1..];
      var h := if x.path == path then [] else [x];
      assert Remove(a + c, path) == h + Remove(rest + c, path) by {
        assert a + c == [x] + (rest + c);
        RemoveCons(x, rest + c, path);
      }
      assert Remove(a, path) == h + Remove(rest, path) by {
        assert a == [x] + rest;
        RemoveCons(x, rest, path);
      }
      RemoveAppend(rest, c, path);
      Regroup(h, Remove(a + c, path), Remove(rest + c, path), Remove(rest, path), Remove(c, path), Remove(a, path));
    } else {
      assert a + c == c;
    }
  }

  /** Removing a path that is not bookmarked changes nothing. */
  lemma {:induction false} RemoveAbsent(list: seq<Bookmark>, path: string)
    requires !Bookmarked(list, path)
    ensures Remove(list, path) == list
  {
    if |list| > 0 {
      assert !Bookmarked(list[1..], path) by {
        forall i | 0 <= i < |list[1..]| ensures list[1..][i].path != path {
          assert list[1..][i] == list[i + 1];
        }
      }
      RemoveAbsent(list[1..], path);
      assert list[0].path != path;
      assert list == [list[0]] + list[1..];
    }
  }

  /** Removing a bookmark that was just added restores the list. */
  lemma {:induction false} RemoveUndoesAdd(list: seq<Bookmark>, f: FileEntry)
    requires f.isDirectory && !Bookmarked(list, f.path)
    ensures Remove(AddSelected(list, [f]), f.path) == list
  {
    RemoveAppended(list, Bookmark(f.name, f.path));
  }

  lemma {:induction false} RemoveAppended(list: seq<Bookmark>, b: Bookmark)
    requires !Bookmarked(list, b.path)
    ensures Remove(list + [b], b.path) == list
    decreases |list|
  {
    if |list| == 0 {
      assert Remove([b][1..], b.path) == [];
    } else {
      assert (list + [b])[1..] == list[1..] + [b];
      assert !Bookmarked(list[1..], b.path) by {
        forall i | 0 <= i < |list[1..]| ensures list[1..][i].path != b.path {
          assert list[1..][i] == list[i + 1];
        }
      }
      RemoveAppended(list[1..], b);
      assert list[0].path != b.path;
      assert list == [list[0]] + list[1..];
    }
  }

  /** Pressing the bookmark button twice adds the directory once. */
  lemma AddTwice(list: seq<Bookmark>, selected: seq<FileEntry>)
    ensures AddSelected(AddSelected(list, selected), selected) == AddSelected(list, selected)
  {
  }

  // ---------------------------------------------------------------------------
  // Sidebar highlight

  /** Drops one trailing `/` or `\`, if there is one. */
  function StripTrailingSep(p: string): (r: string)
    ensures |p| > 0 && IsSep(p[|p| - 1]) ==> p == r + [p[|p| - 1]]
    ensures !(|p| > 0 && IsSep(p[|p| - 1])) ==> r == p
  {
    if |p| > 0 && IsSep(p[|p| - 1]) then p[..|p| - 1] else p
  }

  /** The comparison key: one trailing separator dropped, then lower-cased. */
  function Norm(p: string): string {
    ToLower(StripTrailingSep(p))
  }

  /** A sidebar entry is highlighted when it has a path that names the current directory. */
  predicate Active(entryPath: string, currentPath: string) {
    entryPath != "" && Norm(entryPath) == Norm(currentPath)
  }

  /** One trailing separator does not matter to the highlight. */
  lemma ActiveIgnoresTrailingSep(entryPath: string, currentPath: string, c: char)
    requires entryPath != "" && IsSep(c)
    requires !IsSep(entryPath[|entryPath| - 1])
    ensures Active(entryPath + [c], currentPath) <==> Active(entryPath, currentPath)
  {
    assert (entryPath + [c])[..|entryPath|] == entryPath;
  }

  /** Letter case does not matter to the highlight. */
  lemma ActiveIgnoresCase(entryPath: string, currentPath: string)
    ensures Active(ToLower(entryPath), currentPath) <==> Active(entryPath, currentPath)
  {
    var p := entryPath;
    var q := ToLower(p);
    if |p| > 0 && IsSep(p[|p| - 1]) {
      assert ToLower(q[..|q| - 1]) == ToLower(p[..|p| - 1]);
    } else {
      ToLowerIdempotent(p);
    }
  }

  /** Two trailing separators are one too many: `base//` is not highlighted for `base`. */
  lemma OnlyOneSepStripped(base: string, c1: char, c2: char)
    requires IsSep(c1) && IsSep(c2)
    ensures !Active(base + [c1, c2], base)
  {
    var entry := base + [c1, c2];
    assert StripTrailingSep(entry) == base + [c1];
    assert |Norm(entry)| == |base| + 1;
    assert |Norm(base)| <= |base|;
  }
}

=== FILE: breadcrumbs.dfy ===
/**
  The breadcrumb bar: one button for the root and one per path component,
  each navigating to the path built up to that component.
 */
module Breadcrumbs {
  import opened Text

  /** A breadcrumb button: its caption and the path it navigates to. */
  datatype Crumb = Crumb(caption: string, target: string)

  /** The non-empty pieces of a split, in order (`parts.filter(p => p !== '')`). */
  function NonEmptyPieces(parts: seq<string>): (r: seq<string>)
    ensures forall k :: 0 <= k < |r| ==> r[k] != "" && r[k] in parts
    ensures (forall k :: 0 <= k < |parts| ==> parts[k] != "") ==> r == parts
  {
    if |parts| == 0 then []
    else if parts[0] == "" then NonEmptyPieces(parts[1..])
    else [parts[0]] + NonEmptyPieces(parts[1..])
  }

  /** Every non-empty piece is kept as many times as it occurs, and no empty one. */
  lemma {:induction false} NonEmptyPiecesCounts(parts: seq<string>)
    ensures "" !in NonEmptyPieces(parts)
    ensures forall p :: p != "" ==> multiset(NonEmptyPieces(parts))[p] == multiset(parts)[p]
    decreases |parts|
  {
    if |parts| > 0 {
      NonEmptyPiecesCounts(parts[1..]);
      assert parts == [parts[0]] + parts[1..];
      assert multiset(parts) == multiset{parts[0]} + multiset(parts[1..]);
    }
  }

  /** The filter distributes over concatenation, so the kept pieces stay in order. */
  lemma {:induction false} NonEmptyPiecesAppend(a: seq<string>, b: seq<string>)
    ensures NonEmptyPieces(a + b) == NonEmptyPieces(a) + NonEmptyPieces(b)
    decreases |a|
  {
    if |a| > 0 {
      assert (a + b)[0] == a[0];
      assert (a + b)[1..] == a[1..] + b;
      NonEmptyPiecesAppend(a[1..], b);
    } else {
      assert a + b == b;
    }
  }

  /** The path components: the non-empty pieces between separators. */
  function Components(path: string): (parts: seq<string>)
    ensures forall k :: 0 <= k < |parts| ==> parts[k] != "" && NoSep(parts[k])
    ensures forall p :: p != "" ==> multiset(parts)[p] == multiset(SplitSeps(path))[p]
  {
    var pieces := SplitSeps(path);
    PiecesHaveNoSep(path);
    NonEmptyPiecesCounts(pieces);
    var r := NonEmptyPieces(pieces);
    assert forall k :: 0 <= k < |r| ==> r[k] in pieces;
    r
  }

  /** A path with a non-separator character has at least one component. */
  lemma {:induction false} ComponentsOfNonSep(path: string, c: char)
    requires c in path && !IsSep(c)
    ensures |Components(path)| > 0
    decreases |path|
  {
    if path[0] != c || IsSep(path[0]) {
      if IsSep(path[0]) {
        assert c in path[1..];
        ComponentsOfNonSep(path[1..], c);
        assert SplitSeps(path) == [""] + SplitSeps(path[1..]);
        assert SplitSeps(path)[1..] == SplitSeps(path[1..]);
      } else {
        assert SplitSeps(path)[0] != "";
      }
    } else {
      assert SplitSeps(path)[0] != "";
    }
  }

  predicate EndsWithSep(s: string) {
    |s| > 0 && IsSep(s[|s| - 1])
  }

  /** The separator the bar inserts between components. */
  function CrumbSep(windows: bool): (c: char)
    ensures IsSep(c)
  {
    if windows then '\\' else '/'
  }

  /** The path one step of the trail builds from the running path and a component. */
  function Step(build: string, part: string, windows: bool): (r: string)
    ensures StartsWith(r, build) && EndsWith(r, part)
    ensures EndsWithSep(build) ==> |r| == |build| + |part|
    ensures !EndsWithSep(build) ==> |r| == |build| + 1 + |part| && r[|build|] == CrumbSep(windows)
  {
    if EndsWithSep(build) then build + part else build + [CrumbSep(windows)] + part
  }

  /**
    One button per component: the running path gets the component appended,
    with a separator in between unless it already ends with one.
   */
  function Trail(build: string, parts: seq<string>, windows: bool): (r: seq<Crumb>)
    ensures |r| == |parts|
    decreases |parts|
  {
    if |parts| == 0 then []
    else
      var next := Step(build, parts[0], windows);
      [Crumb(parts[0], next)] + Trail(next, parts[1..], windows)
  }

  /** Each button is captioned with its component, and its target ends with it. */
  lemma {:induction false} TrailCaptions(build: string, parts: seq<string>, windows: bool)
    ensures forall k :: 0 <= k < |Trail(build, parts, windows)| ==>
      Trail(build, parts, windows)[k].caption == parts[k] && EndsWith(Trail(build, parts, windows)[k].target, parts[k])
    decreases |parts|
  {
    if |parts| > 0 {
      var r := Trail(build, parts, windows);
      var next := r[0].target;
      assert next[|next| - |parts[0]|..] == parts[0];
      TrailCaptions(next, parts[1..], windows);
      var rest := Trail(next, parts[1..], windows);
      assert r == [r[0]] + rest;
      forall k | 1 <= k < |r| ensures r[k].caption == parts[k] && EndsWith(r[k].target, parts[k]) {
        assert r[k] == rest[k - 1];
        assert parts[k] == parts[1..][k - 1];
      }
    }
  }

  /**
    Every button's path is exactly the previous button's path (the running path,
    for the first) joined to its own component: a separator in between, unless
    the previous path already ends with one.
   */
  lemma {:induction false} TrailSteps(build: string, parts: seq<string>, windows: bool)
    ensures |parts| > 0 ==>
      && (EndsWithSep(build) ==> Trail(build, parts, windows)[0].target == build + parts[0])
      && (!EndsWithSep(build) ==> Trail(build, parts, windows)[0].target == build + [CrumbSep(windows)] + parts[0])
    ensures forall k :: 0 < k < |Trail(build, parts, windows)| ==>
      Trail(build, parts, windows)[k].target == Step(Trail(build, parts, windows)[k - 1].target, parts[k], windows)
    decreases |parts|
  {
    if |parts| > 0 {
      var r := Trail(build, parts, windows);
      var next := r[0].target;
      TrailSteps(next, parts[1..], windows);
      var rest := Trail(next, parts[1..], windows);
      assert r == [Crumb(parts[0], next)] + rest;
      forall k | 0 < k < |r|
        ensures r[k].target == Step(r[k - 1].target, parts[k], windows)
      {
        assert r[k] == rest[k - 1];
        assert parts[k] == parts[1..][k - 1];
        if k > 1 {
          assert r[k - 1] == rest[k - 2];
        }
      }
    }
  }

  /** Each button's path extends the previous one's by one component. */
  lemma {:induction false} TrailExtends(build: string, parts: seq<string>, windows: bool)
    requires forall k :: 0 <= k < |parts| ==> parts[k] != "" && NoSep(parts[k])
    ensures |parts| > 0 ==> StartsWith(Trail(build, parts, windows)[0].target, build) && |Trail(build, parts, windows)[0].target| > |build|
    ensures forall k :: 0 < k < |Trail(build, parts, windows)| ==>
      && StartsWith(Trail(build, parts, windows)[k].target, Trail(build, parts, windows)[k - 1].target)
      && |Trail(build, parts, windows)[k].target| > |Trail(build, parts, windows)[k - 1].target|
    decreases |parts|
  {
    if |parts| > 0 {
      var r := Trail(build, parts, windows);
      var next := r[0].target;
      assert next[..|build|] == build;
      TrailExtends(next, parts[1..], windows);
      var rest := Trail(next, parts[1..], windows);
      assert r == [Crumb(parts[0], next)] + rest;
      forall k | 0 < k < |r|
        ensures StartsWith(r[k].target, r[k - 1].target) && |r[k].target| > |r[k - 1].target|
      {
        assert r[k] == rest[k - 1];
        if k > 1 {
          assert r[k - 1] == rest[k - 2];
        }
      }
    }
  }

  /** `renderBreadcrumbs`: the root button, then the trail of components. */
  function Crumbs(path: string): (r: seq<Crumb>)
    ensures var parts := Components(path);
      && |r| >= 1
      && (':' !in path ==> r[0].target == "/" && |r| == |parts| + 1)
      && (':' in path ==> |parts| >= 1 && r[0].target == parts[0] + "\\" && |r| == |parts|)
  {
    var windows := ':' in path;
    var parts := Components(path);
    if windows then
      ComponentsOfNonSep(path, ':');
      var drive := parts[0] + "\\";
      [Crumb("Este Equipo", drive)] + Trail(drive, parts[1..], true)
    else
      [Crumb("Raíz", "/")] + Trail("/", parts, false)
  }

  /** After the root button, the captions are the components (after the drive, on a path with a colon). */
  lemma CrumbCaptions(path: string)
    ensures ':' !in path ==> forall k :: 1 <= k < |Crumbs(path)| ==> Crumbs(path)[k].caption == Components(path)[k - 1]
    ensures ':' in path ==> forall k :: 1 <= k < |Crumbs(path)| ==> Crumbs(path)[k].caption == Components(path)[k]
  {
    var parts := Components(path);
    if ':' in path {
      ComponentsOfNonSep(path, ':');
      var drive := parts[0] + "\\";
      TrailCaptions(drive, parts[1..], true);
      CaptionsAfterHead(Crumb("Este Equipo", drive), Trail(drive, parts[1..], true), parts[1..]);
    } else {
      TrailCaptions("/", parts, false);
      CaptionsAfterHead(Crumb("Raíz", "/"), Trail("/", parts, false), parts);
    }
  }

  /**
    Every button after the root button navigates to the previous button's path
    joined to its own caption, as the trail builds it.
   */
  lemma CrumbTargets(path: string)
    ensures forall k :: 1 <= k < |Crumbs(path)| ==>
      Crumbs(path)[k].target == Step(Crumbs(path)[k - 1].target, Crumbs(path)[k].caption, ':' in path)
  {
    var parts := Components(path);
    var r := Crumbs(path);
    var windows := ':' in path;
    var head := r[0];
    var rest := if windows then (ComponentsOfNonSep(path, ':'); parts[1..]) else parts;
    var t := Trail(head.target, rest, windows);
    assert r == [head] + t;
    TrailSteps(head.target, rest, windows);
    TrailCaptions(head.target, rest, windows);
    forall k | 1 <= k < |r|
      ensures r[k].target == Step(r[k - 1].target, r[k].caption, windows)
    {
      assert r[k] == t[k - 1];
      if k > 1 {
        assert r[k - 1] == t[k - 2];
      }
    }
  }

  /** Putting a button in front shifts the captions by one. */
  lemma CaptionsAfterHead(head: Crumb, t: seq<Crumb>, parts: seq<string>)
    requires |t| == |parts|
    requires forall k :: 0 <= k < |t| ==> t[k].caption == parts[k]
    ensures forall k :: 1 <= k < |[head] + t| ==> ([head] + t)[k].caption == parts[k - 1]
  {
  }

  // ---------------------------------------------------------------------------
  // The last button leads back to the current directory

  /** The last button of a non-empty trail is the last button of the trail after its first step. */
  lemma TrailLast(build: string, parts: seq<string>, windows: bool)
    requires |parts| >= 1
    ensures var r := Trail(build, parts, windows);
      var next := r[0].target;
      && next == Step(build, parts[0], windows)
      && (|parts| == 1 ==> r[|r| - 1].target == next)
      && (|parts| > 1 ==> var rest := Trail(next, parts[1..], windows); r[|r| - 1] == rest[|rest| - 1])
  {
  }

  /** Appending a non-empty separator-free string leaves no trailing separator. */
  lemma NoTrailingSep(a: string, b: string)
    requires b != "" && NoSep(b)
    ensures !EndsWithSep(a + b)
  {
    assert (a + b)[|a + b| - 1] == b[|b| - 1];
  }

  lemma Regroup(a: string, b: string, c: string, d: string)
    ensures a + b + c + d == a + (b + c + d)
  {
  }

  /** From a running path that does not end in a separator, the trail ends at the joined path. */
  lemma {:induction false} TrailEndsAtJoin(build: string, parts: seq<string>, windows: bool)
    requires |parts| >= 1 && !EndsWithSep(build)
    requires forall k :: 0 <= k < |parts| ==> parts[k] != "" && NoSep(parts[k])
    ensures var r := Trail(build, parts, windows);
      r[|r| - 1].target == build + [CrumbSep(windows)] + JoinWith(parts, CrumbSep(windows))
    decreases |parts|
  {
    var c := CrumbSep(windows);
    TrailLast(build, parts, windows);
    var next := build + [c] + parts[0];
    if |parts| > 1 {
      NoTrailingSep(build + [c], parts[0]);
      TrailEndsAtJoin(next, parts[1..], windows);
      var tail := JoinWith(parts[1..], c);
      assert JoinWith(parts, c) == parts[0] + [c] + tail;
      Regroup(build + [c], parts[0], [c], tail);
    }
  }

  /** Started at a root that ends in a separator, the trail ends at the root followed by the joined path. */
  lemma TrailFromRoot(root: string, parts: seq<string>, windows: bool)
    requires |parts| >= 1 && EndsWithSep(root)
    requires forall k :: 0 <= k < |parts| ==> parts[k] != "" && NoSep(parts[k])
    ensures var r := Trail(root, parts, windows);
      r[|r| - 1].target == root + JoinWith(parts, CrumbSep(windows))
  {
    var c := CrumbSep(windows);
    TrailLast(root, parts, windows);
    var next := root + parts[0];
    if |parts| > 1 {
      NoTrailingSep(root, parts[0]);
      TrailEndsAtJoin(next, parts[1..], windows);
      var tail := JoinWith(parts[1..], c);
      assert JoinWith(parts, c) == parts[0] + [c] + tail;
      Regroup(root, parts[0], [c], tail);
    }
  }

  /** The components of `/a/b/c` are `a`, `b`, `c`. */
  lemma PosixComponents(parts: seq<string>)
    requires |parts| >= 1
    requires forall k :: 0 <= k < |parts| ==> parts[k] != "" && NoSep(parts[k])
    ensures Components("/" + JoinWith(parts, '/')) == parts
  {
    var joined := JoinWith(parts, '/');
    var path := "/" + joined;
    SplitJoin(parts, '/');
    assert path[1..] == joined;
    assert SplitSeps(path) == [""] + parts;
    assert ([""] + parts)[1..] == parts;
  }

  /** On a path without a colon the bar is the POSIX root followed by the component trail. */
  lemma PosixCrumbs(path: string, parts: seq<string>)
    requires ':' !in path && Components(path) == parts && |parts| >= 1
    ensures var r := Crumbs(path);
      var t := Trail("/", parts, false);
      r[|r| - 1] == t[|t| - 1]
  {
  }

  /** A well-formed POSIX path: its last breadcrumb navigates back to it. */
  lemma PosixLastCrumbIsPath(parts: seq<string>, path: string)
    requires |parts| >= 1
    requires forall k :: 0 <= k < |parts| ==> parts[k] != "" && NoSep(parts[k]) && ':' !in parts[k]
    requires path == "/" + JoinWith(parts, '/')
    ensures var r := Crumbs(path); r[|r| - 1].target == path
  {
    assert ':' !in path by {
      JoinWithout(parts, '/', ':');
      assert path[1..] == JoinWith(parts, '/');
    }
    PosixComponents(parts);
    TrailFromRoot("/", parts, false);
    PosixCrumbs(path, parts);
  }

  /** The components of a bare drive root `D:\` are the drive alone. */
  lemma DriveRootComponents(drive: string)
    requires drive != "" && NoSep(drive)
    ensures Components(drive + "\\") == [drive]
  {
    SplitPrefix(drive, "\\");
    assert "\\"[1..] == "";
    assert SplitSeps("\\") == ["", ""];
    assert drive + "" == drive;
    assert SplitSeps(drive + "\\") == [drive, ""];
    assert NonEmptyPieces([""]) == [] by {
      assert [""][1..] == [];
    }
    assert [drive, ""][1..] == [""];
  }

  /** On a path with a colon the bar is the drive root followed by the trail of the later components. */
  lemma WindowsCrumbs(path: string)
    requires ':' in path
    ensures |Components(path)| >= 1
    ensures var r := Crumbs(path);
      var parts := Components(path);
      var t := Trail(parts[0] + "\\", parts[1..], true);
      r[|r| - 1] == if |t| == 0 then Crumb("Este Equipo", parts[0] + "\\") else t[|t| - 1]
  {
    ComponentsOfNonSep(path, ':');
  }

  /** A well-formed Windows path `D:\a\b` (or a bare `D:\`): its last breadcrumb navigates back to it. */
  lemma WindowsLastCrumbIsPath(drive: string, parts: seq<string>)
    requires drive != "" && NoSep(drive) && ':' in drive
    requires forall k :: 0 <= k < |parts| ==> parts[k] != "" && NoSep(parts[k])
    ensures var path := JoinWith([drive] + parts, '\\') + (if |parts| == 0 then "\\" else "");
      var r := Crumbs(path);
      r[|r| - 1].target == path
  {
    var all := [drive] + parts;
    var joined := JoinWith(all, '\\');
    assert all[1..] == parts;
    if |parts| == 0 {
      var path := drive + "\\";
      assert joined == drive;
      assert ':' in path by { assert path[..|drive|] == drive; }
      DriveRootComponents(drive);
      WindowsCrumbs(path);
    } else {
      SplitJoin(all, '\\');
      assert joined == drive + "\\" + JoinWith(parts, '\\');
      assert ':' in joined by { assert joined[..|drive|] == drive; }
      assert joined + "" == joined;
      assert Components(joined) == all;
      WindowsCrumbs(joined);
      TrailFromRoot(drive + "\\", parts, true);
    }
  }

  /** Joining pieces free of a non-separator character gives a string free of it. */
  lemma {:induction false} JoinWithout(parts: seq<string>, c: char, x: char)
    requires |parts| >= 1 && x != c
    requires forall k :: 0 <= k < |parts| ==> x !in parts[k]
    ensures x !in JoinWith(parts, c)
    decreases |parts|
  {
    if |parts| > 1 {
      JoinWithout(parts[1..], c, x);
    }
  }
}

=== FILE: common.dfy ===
/** The optional value used where the source stores `null` or returns `undefined`. */
module Common {

  datatype Option<+T> = None | Some(value: T)
}

=== FILE: files.dfy ===
/**
  A directory entry as the listing endpoint returns it, and the lookups by
  path that the file manager performs on lists of entries.
 */
module Files {

  /**
    One entry of a directory listing. `ext` is the lower-cased extension with
    its dot (`".png"`), `mtime` the modification time in milliseconds.
   */
  datatype FileEntry = FileEntry(
    name: string,
    path: string,
    ext: string,
    isDirectory: bool,
    size: int,
    mtime: int)

  /** Some entry of `files` has the given path. */
  predicate HasPath(files: seq<FileEntry>, path: string) {
    exists j :: 0 <= j < |files| && files[j].path == path
  }

  /** No two entries of `files` share a path. */
  predicate DistinctPaths(files: seq<FileEntry>) {
    forall i, j :: 0 <= i < j < |files| ==> files[i].path != files[j].path
  }

  /** `files.findIndex(f => f.path === path)`: the first entry with that path, or -1. */
  function IndexOfPath(files: seq<FileEntry>, path: string): (k: int)
    ensures -1 <= k < |files|
    ensures k >= 0 ==> files[k].path == path
    ensures forall j :: 0 <= j < |files| && (k == -1 || j < k) ==> files[j].path != path
    ensures k == -1 <==> !HasPath(files, path)
  {
    if |files| == 0 then -1
    else if files[0].path == path then 0
    else
      var k := IndexOfPath(files[1..], path);
      assert forall j :: 1 <= j < |files| ==> files[j] == files[1..][j - 1];
      if k == -1 then -1 else k + 1
  }
}

=== FILE: icons.dfy ===
/**
  Classification of entries by extension: the Adwaita icon shown for an entry
  and the editor language chosen for a text file.
 */
module Icons {
  import opened Text
  import opened Files

  const ImageExts: seq<string> := [".jpg", ".png", ".gif", ".svg", ".webp"]
  const AudioExts: seq<string> := [".mp3", ".wav", ".ogg", ".m4a"]
  const VideoExts: seq<string> := [".mp4", ".webm", ".ogv", ".mov", ".mkv"]
  const ArchiveExts: seq<string> := [".zip", ".rar", ".7z", ".tar", ".gz"]
  const CodeExts: seq<string> := [".html", ".js", ".css", ".json", ".ts"]

  const FolderIcons: set<string> := {
    "icons/adwaita/user-desktop.svg", "icons/adwaita/folder-documents.svg",
    "icons/adwaita/folder-download.svg", "icons/adwaita/folder.svg" }

  /** The icon of an entry: a directory by its name, any other entry by its lower-cased extension. */
  function AdwaitaIcon(f: FileEntry): (icon: string)
    ensures f.isDirectory <==> icon in FolderIcons
    ensures f.isDirectory && Contains(ToLower(f.name), "desk") ==> icon == "icons/adwaita/user-desktop.svg"
    ensures !f.isDirectory && ToLower(f.ext) in VideoExts ==> icon == "icons/adwaita/file-video.svg"
  {
    if f.isDirectory then
      var n := ToLower(f.name);
      if Contains(n, "desk") then "icons/adwaita/user-desktop.svg"
      else if Contains(n, "doc") then "icons/adwaita/folder-documents.svg"
      else if Contains(n, "down") then "icons/adwaita/folder-download.svg"
      else "icons/adwaita/folder.svg"
    else
      var e := ToLower(f.ext);
      if e == ".pdf" then "icons/adwaita/file-pdf.svg"
      else if e in ImageExts then "icons/adwaita/file-image.svg"
      else if e in AudioExts then "icons/adwaita/file-audio.svg"
      else if e in VideoExts then "icons/adwaita/file-video.svg"
      else if e in ArchiveExts then "icons/adwaita/file-archive.svg"
      else if e in CodeExts then "icons/adwaita/file-code.svg"
      else "icons/adwaita/file-text.svg"
  }

  /** Letter case of the name or extension does not change the icon. */
  lemma IconIgnoresCase(f: FileEntry)
    ensures AdwaitaIcon(f.(name := ToLower(f.name), ext := ToLower(f.ext))) == AdwaitaIcon(f)
  {
    ToLowerIdempotent(f.name);
    ToLowerIdempotent(f.ext);
  }

  /** The extension lists are disjoint, so the order of the tests does not matter to a file. */
  lemma ExtensionListsDisjoint()
    ensures forall e :: e in ImageExts ==> e !in AudioExts && e !in VideoExts && e !in ArchiveExts && e !in CodeExts
    ensures forall e :: e in AudioExts ==> e !in VideoExts && e !in ArchiveExts && e !in CodeExts
    ensures forall e :: e in VideoExts ==> e !in ArchiveExts && e !in CodeExts
    ensures forall e :: e in ArchiveExts ==> e !in CodeExts
    ensures ".pdf" !in ImageExts + AudioExts + VideoExts + ArchiveExts + CodeExts
  {
  }

  /** A file whose extension is in one of the kind lists gets that kind's icon. */
  lemma IconOfKind(f: FileEntry)
    requires !f.isDirectory
    ensures ToLower(f.ext) == ".pdf" ==> AdwaitaIcon(f) == "icons/adwaita/file-pdf.svg"
    ensures ToLower(f.ext) in ImageExts ==> AdwaitaIcon(f) == "icons/adwaita/file-image.svg"
    ensures ToLower(f.ext) in AudioExts ==> AdwaitaIcon(f) == "icons/adwaita/file-audio.svg"
    ensures ToLower(f.ext) in VideoExts ==> AdwaitaIcon(f) == "icons/adwaita/file-video.svg"
    ensures ToLower(f.ext) in ArchiveExts ==> AdwaitaIcon(f) == "icons/adwaita/file-archive.svg"
    ensures ToLower(f.ext) in CodeExts ==> AdwaitaIcon(f) == "icons/adwaita/file-code.svg"
    // any other extension falls back to the text icon
    ensures ToLower(f.ext) != ".pdf" && ToLower(f.ext) !in ImageExts + AudioExts + VideoExts + ArchiveExts + CodeExts ==>
      AdwaitaIcon(f) == "icons/adwaita/file-text.svg"
  {
    ExtensionListsDisjoint();
  }

  /**
    A directory's icon follows the first word its lower-cased name contains, in
    the order `desk`, `doc`, `down`; a name with none of them gets the plain folder.
   */
  lemma FolderIconOrder(f: FileEntry)
    requires f.isDirectory
    ensures Contains(ToLower(f.name), "desk") ==> AdwaitaIcon(f) == "icons/adwaita/user-desktop.svg"
    ensures !Contains(ToLower(f.name), "desk") && Contains(ToLower(f.name), "doc") ==>
      AdwaitaIcon(f) == "icons/adwaita/folder-documents.svg"
    ensures !Contains(ToLower(f.name), "desk") && !Contains(ToLower(f.name), "doc") && Contains(ToLower(f.name), "down") ==>
      AdwaitaIcon(f) == "icons/adwaita/folder-download.svg"
    ensures !Contains(ToLower(f.name), "desk") && !Contains(ToLower(f.name), "doc") && !Contains(ToLower(f.name), "down") ==>
      AdwaitaIcon(f) == "icons/adwaita/folder.svg"
  {
  }

  // ---------------------------------------------------------------------------
  // Editor language

  /** The language table of the code editor. */
  const Languages: map<string, string> := map[
    ".js" := "javascript", ".json" := "json", ".html" := "html", ".css" := "css",
    ".py" := "python", ".md" := "markdown", ".ts" := "typescript"]

  /** The editor language for an extension, `plaintext` when the table has none. */
  function MonacoLanguage(ext: string): (lang: string)
    ensures ToLower(ext) in Languages ==> lang == Languages[ToLower(ext)]
    ensures ToLower(ext) !in Languages ==> lang == "plaintext"
    ensures lang != ""
  {
    var e := ToLower(ext);
    if e in Languages && Languages[e] != "" then Languages[e] else "plaintext"
  }

  /** Upper-case extensions get the same language. */
  lemma LanguageIgnoresCase(ext: string)
    ensures MonacoLanguage(ToLower(ext)) == MonacoLanguage(ext)
  {
    ToLowerIdempotent(ext);
  }

  /** Every file that gets the code icon gets a highlighted language in the editor. */
  lemma CodeIconHasLanguage(f: FileEntry)
    requires AdwaitaIcon(f) == "icons/adwaita/file-code.svg"
    ensures MonacoLanguage(f.ext) != "plaintext"
  {
  }
}

=== FILE: listing.dfy ===
/**
  The shown listing: the entries of the current directory whose name contains
  the search text (ignoring case), directories first, then ordered by the
  chosen key. Name order is the locale collation, which is kept abstract as a
  total preorder `nameLeq` on names.
 */
module Listing {
  import opened Text
  import opened Files

  /** The sort selector: `"date"`, `"size"`, and anything else sorts by name. */
  datatype SortKey = ByName | ByDate | BySize

  function KeyOf(value: string): (k: SortKey)
    ensures k == ByDate <==> value == "date"
    ensures k == BySize <==> value == "size"
  {
    if value == "date" then ByDate
    else if value == "size" then BySize
    else ByName
  }

  /** `nameLeq` relates every two names and is transitive, as a collation order is. */
  ghost predicate TotalPreorder(nameLeq: (string, string) -> bool) {
    && (forall a, b :: nameLeq(a, b) || nameLeq(b, a))
    && (forall a, b, c :: nameLeq(a, b) && nameLeq(b, c) ==> nameLeq(a, c))
  }

  // ---------------------------------------------------------------------------
  // Filter

  /** The entry's lower-cased name contains the lower-cased search text. */
  predicate Matches(f: FileEntry, query: string) {
    Contains(ToLower(f.name), ToLower(query))
  }

  /** The entries that match the search text, in listing order. */
  function Filter(files: seq<FileEntry>, query: string): (r: seq<FileEntry>)
    ensures forall f :: multiset(r)[f] == if Matches(f, query) then multiset(files)[f] else 0
    ensures |r| <= |files|
  {
    if |files| == 0 then []
    else
      assert files == [files[0]] + files[1..];
      var rest := Filter(files[1..], query);
      if Matches(files[0], query) then [files[0]] + rest else rest
  }

  /** An empty search keeps every entry. */
  lemma {:induction false} FilterEmptyQuery(files: seq<FileEntry>)
    ensures Filter(files, "") == files
  {
    if |files| > 0 {
      ContainsEmpty(ToLower(files[0].name));
      FilterEmptyQuery(files[1..]);
    }
  }

  /** The search ignores case: lower-casing the query first changes nothing. */
  lemma FilterIgnoresQueryCase(files: seq<FileEntry>, query: string)
    ensures Filter(files, ToLower(query)) == Filter(files, query)
  {
    ToLowerIdempotent(query);
    FilterSameMatches(files, ToLower(query), query);
  }

  lemma {:induction false} FilterSameMatches(files: seq<FileEntry>, q1: string, q2: string)
    requires ToLower(q1) == ToLower(q2)
    ensures Filter(files, q1) == Filter(files, q2)
  {
    if |files| > 0 {
      FilterSameMatches(files[1..], q1, q2);
    }
  }

  // ---------------------------------------------------------------------------
  // Order

  /**
    The comparator, read as "`a` may come before `b`" (it returns at most 0):
    a directory before a file; between two of a kind, newer first by date,
    larger first by size, otherwise by name.
   */
  predicate Before(a: FileEntry, b: FileEntry, key: SortKey, nameLeq: (string, string) -> bool) {
    if a.isDirectory != b.isDirectory then a.isDirectory
    else match key
      case ByDate => b.mtime - a.mtime <= 0
      case BySize => b.size - a.size <= 0
      case ByName => nameLeq(a.name, b.name)
  }

  lemma BeforeTotal(a: FileEntry, b: FileEntry, key: SortKey, nameLeq: (string, string) -> bool)
    requires TotalPreorder(nameLeq)
    ensures Before(a, b, key, nameLeq) || Before(b, a, key, nameLeq)
  {
  }

  lemma BeforeTransitive(a: FileEntry, b: FileEntry, c: FileEntry, key: SortKey, nameLeq: (string, string) -> bool)
    requires TotalPreorder(nameLeq)
    requires Before(a, b, key, nameLeq) && Before(b, c, key, nameLeq)
    ensures Before(a, c, key, nameLeq)
  {
  }

  /** Every entry may come before every later one. */
  ghost predicate Sorted(s: seq<FileEntry>, key: SortKey, nameLeq: (string, string) -> bool) {
    forall i, j :: 0 <= i < j < |s| ==> Before(s[i], s[j], key, nameLeq)
  }

  /** Places `x` before the first entry it may precede. */
  function Insert(x: FileEntry, s: seq<FileEntry>, key: SortKey, nameLeq: (string, string) -> bool): (r: seq<FileEntry>)
    requires TotalPreorder(nameLeq) && Sorted(s, key, nameLeq)
    ensures multiset(r) == multiset(s) + multiset{x}
    ensures Sorted(r, key, nameLeq)
  {
    if |s| == 0 then [x]
    else if Before(x, s[0], key, nameLeq) then
      FirstIsLeast(x, s, key, nameLeq);
      SortedCons(x, s, key, nameLeq);
      [x] + s
    else
      assert s == [s[0]] + s[1..];
      var t := Insert(x, s[1..], key, nameLeq);
      BeforeTotal(x, s[0], key, nameLeq);
      BoundKept(s[0], s[1..], x, t, key, nameLeq);
      SortedCons(s[0], t, key, nameLeq);
      [s[0]] + t
  }

  /** An entry that goes before the head of a sorted list goes before all of it. */
  lemma FirstIsLeast(x: FileEntry, s: seq<FileEntry>, key: SortKey, nameLeq: (string, string) -> bool)
    requires TotalPreorder(nameLeq) && Sorted(s, key, nameLeq)
    requires |s| > 0 && Before(x, s[0], key, nameLeq)
    ensures forall j :: 0 <= j < |s| ==> Before(x, s[j], key, nameLeq)
  {
    forall j | 0 < j < |s| ensures Before(x, s[j], key, nameLeq) {
      BeforeTransitive(x, s[0], s[j], key, nameLeq);
    }
  }

  /** Putting an entry that goes before all of a sorted list in front keeps it sorted. */
  lemma SortedCons(x: FileEntry, s: seq<FileEntry>, key: SortKey, nameLeq: (string, string) -> bool)
    requires Sorted(s, key, nameLeq)
    requires forall j :: 0 <= j < |s| ==> Before(x, s[j], key, nameLeq)
    ensures Sorted([x] + s, key, nameLeq)
  {
    var r := [x] + s;
    forall i, j | 0 <= i < j < |r| ensures Before(r[i], r[j], key, nameLeq) {
      assert r[j] == s[j - 1];
      if i > 0 { assert r[i] == s[i - 1]; }
    }
  }

  /** A lower bound of a list and of one more entry bounds any rearrangement of them. */
  lemma BoundKept(y: FileEntry, s: seq<FileEntry>, x: FileEntry, t: seq<FileEntry>, key: SortKey, nameLeq: (string, string) -> bool)
    requires multiset(t) == multiset(s) + multiset{x}
    requires forall j :: 0 <= j < |s| ==> Before(y, s[j], key, nameLeq)
    requires Before(y, x, key, nameLeq)
    ensures forall k :: 0 <= k < |t| ==> Before(y, t[k], key, nameLeq)
  {
    forall k | 0 <= k < |t| ensures Before(y, t[k], key, nameLeq) {
      assert t[k] in multiset(t);
      if t[k] != x {
        assert t[k] in multiset(s);
        var j :| 0 <= j < |s| && s[j] == t[k];
      }
    }
  }


  /** Insertion sort by the comparator. */
  function Sort(s: seq<FileEntry>, key: SortKey, nameLeq: (string, string) -> bool): (r: seq<FileEntry>)
    requires TotalPreorder(nameLeq)
    ensures multiset(r) == multiset(s)
    ensures Sorted(r, key, nameLeq)
  {
    if |s| == 0 then []
    else
      assert s == [s[0]] + s[1..];
      Insert(s[0], Sort(s[1..], key, nameLeq), key, nameLeq)
  }

  /** `render`'s shown list: the matching entries, sorted. */
  function Shown(files: seq<FileEntry>, query: string, key: SortKey, nameLeq: (string, string) -> bool): (r: seq<FileEntry>)
    requires TotalPreorder(nameLeq)
    ensures forall f :: multiset(r)[f] == if Matches(f, query) then multiset(files)[f] else 0
    ensures Sorted(r, key, nameLeq)
  {
    Sort(Filter(files, query), key, nameLeq)
  }

  /** In a sorted list every directory comes before every other entry. */
  lemma DirectoriesFirst(s: seq<FileEntry>, key: SortKey, nameLeq: (string, string) -> bool)
    requires Sorted(s, key, nameLeq)
    ensures forall i, j :: 0 <= i < j < |s| && s[j].isDirectory ==> s[i].isDirectory
  {
    forall i, j | 0 <= i < j < |s| && s[j].isDirectory ensures s[i].isDirectory {
      assert Before(s[i], s[j], key, nameLeq);
    }
  }

  /** Among entries of one kind, a sorted list follows the key: newer, larger, or name order first. */
  lemma OrderWithinKind(s: seq<FileEntry>, key: SortKey, nameLeq: (string, string) -> bool)
    requires Sorted(s, key, nameLeq)
    ensures forall i, j :: 0 <= i < j < |s| && s[i].isDirectory == s[j].isDirectory ==>
      match key
      case ByDate => s[i].mtime >= s[j].mtime
      case BySize => s[i].size >= s[j].size
      case ByName => nameLeq(s[i].name, s[j].name)
  {
    forall i, j | 0 <= i < j < |s| && s[i].isDirectory == s[j].isDirectory
      ensures match key
        case ByDate => s[i].mtime >= s[j].mtime
        case BySize => s[i].size >= s[j].size
        case ByName => nameLeq(s[i].name, s[j].name)
    {
      assert Before(s[i], s[j], key, nameLeq);
    }
  }

  /** The shown list: exactly the matching entries, directories first, each kind in key order. */
  lemma ShownListing(files: seq<FileEntry>, query: string, key: SortKey, nameLeq: (string, string) -> bool)
    requires TotalPreorder(nameLeq)
    ensures forall k :: 0 <= k < |Shown(files, query, key, nameLeq)| ==>
      Shown(files, query, key, nameLeq)[k] in files && Matches(Shown(files, query, key, nameLeq)[k], query)
    ensures forall f :: f in files && Matches(f, query) ==> f in Shown(files, query, key, nameLeq)
    ensures forall i, j :: 0 <= i < j < |Shown(files, query, key, nameLeq)| && Shown(files, query, key, nameLeq)[j].isDirectory ==>
      Shown(files, query, key, nameLeq)[i].isDirectory
  {
    var r := Shown(files, query, key, nameLeq);
    forall k | 0 <= k < |r| ensures r[k] in files && Matches(r[k], query) {
      assert multiset(r)[r[k]] > 0;
    }
    forall f | f in files && Matches(f, query) ensures f in r {
      assert multiset(files)[f] > 0;
    }
    DirectoriesFirst(r, key, nameLeq);
  }
}

=== FILE: messages.dfy ===
/**
  Message handling in the background worker: the one-slot hand-off of a file
  picked in the file manager back to the tab that asked for it, and the rule
  that decides which browser downloads are taken over.
 */
module Messages {
  import opened Common
  import opened Text

  /** The messages that affect the hand-off; the tab id of `OpenPicker` is the sender's. */
  datatype Message = OpenPicker(senderTab: int) | FileSelected(url: string) | OtherMessage

  /** A picked file on its way to the tab that requested it. */
  datatype Delivery = Delivery(tab: int, url: string)

  /**
    One message against the slot holding the requesting tab: `OpenPicker`
    records its sender; `FileSelected` acts only when the slot holds a tab id
    that is not 0 (0 is falsy), delivering to that tab and emptying the slot.
   */
  function Step(slot: Option<int>, msg: Message): (r: (Option<int>, Option<Delivery>))
    ensures msg.OpenPicker? ==> r == (Some(msg.senderTab), None)
    ensures r.1.Some? <==> msg.FileSelected? && slot.Some? && slot.value != 0
    ensures r.1.Some? ==> r.0 == None && r.1.value == Delivery(slot.value, msg.url)
    ensures !msg.OpenPicker? && r.1.None? ==> r.0 == slot
  {
    match msg
    case OpenPicker(tab) => (Some(tab), None)
    case FileSelected(url) =>
      if slot.Some? && slot.value != 0 then (None, Some(Delivery(slot.value, url)))
      else (slot, None)
    case OtherMessage => (slot, None)
  }

  /** A second selection without a new request delivers nothing. */
  lemma SecondSelectionIgnored(slot: Option<int>, url1: string, url2: string)
    ensures var first := Step(slot, FileSelected(url1));
      first.1.Some? ==> Step(first.0, FileSelected(url2)).1.None?
  {
  }

  /** A request followed by a selection delivers to the requesting tab, unless its id is 0. */
  lemma RequestThenSelect(slot: Option<int>, tab: int, url: string)
    ensures var afterOpen := Step(slot, OpenPicker(tab)).0;
      Step(afterOpen, FileSelected(url)).1 == if tab != 0 then Some(Delivery(tab, url)) else None
  {
  }

  /** The slot and the deliveries after a run of messages. */
  function Run(slot: Option<int>, msgs: seq<Message>): (r: (Option<int>, seq<Delivery>))
    decreases |msgs|
  {
    if |msgs| == 0 then (slot, [])
    else
      var (next, d) := Step(slot, msgs[0]);
      var (final, rest) := Run(next, msgs[1..]);
      (final, (if d.Some? then [d.value] else []) + rest)
  }

  /** The number of picker requests in a run. */
  function Requests(msgs: seq<Message>): nat {
    if |msgs| == 0 then 0 else (if msgs[0].OpenPicker? then 1 else 0) + Requests(msgs[1..])
  }

  /**
    Each request is answered at most once: a run delivers no more files than it
    has requests, plus one for a request already waiting in the slot; and every
    delivery goes to a tab that asked.
   */
  lemma {:induction false} DeliveriesBounded(slot: Option<int>, msgs: seq<Message>)
    ensures var (final, ds) := Run(slot, msgs);
      |ds| + (if final.Some? && final.value != 0 then 1 else 0)
        <= Requests(msgs) + (if slot.Some? && slot.value != 0 then 1 else 0)
    ensures forall k :: 0 <= k < |Run(slot, msgs).1| ==>
      || (slot.Some? && Run(slot, msgs).1[k].tab == slot.value)
      || exists j :: 0 <= j < |msgs| && msgs[j] == OpenPicker(Run(slot, msgs).1[k].tab)
    decreases |msgs|
  {
    if |msgs| > 0 {
      var (next, d) := Step(slot, msgs[0]);
      DeliveriesBounded(next, msgs[1..]);
      var rest := Run(next, msgs[1..]).1;
      var ds := Run(slot, msgs).1;
      var head := if d.Some? then [d.value] else [];
      assert ds == head + rest;
      forall k | 0 <= k < |ds|
        ensures (slot.Some? && ds[k].tab == slot.value) || exists j :: 0 <= j < |msgs| && msgs[j] == OpenPicker(ds[k].tab)
      {
        if k < |head| {
          assert ds[k] == d.value;
        } else {
          assert ds[k] == rest[k - |head|];
          if next.Some? && ds[k].tab == next.value && !(slot.Some? && ds[k].tab == slot.value) {
            assert msgs[0] == OpenPicker(ds[k].tab);
          } else if !(next.Some? && ds[k].tab == next.value) {
            var j :| 0 <= j < |msgs[1..]| && msgs[1..][j] == OpenPicker(ds[k].tab);
            assert msgs[j + 1] == OpenPicker(ds[k].tab);
          }
        }
      }
    }
  }

  // ---------------------------------------------------------------------------
  // Download interception

  /** Downloads of `blob:` and `data:` URLs are left to the browser. */
  predicate LeftToBrowser(url: string) {
    StartsWith(url, "blob:") || StartsWith(url, "data:")
  }

  /** What the worker does with a new browser download. */
  datatype Interception = LetBrowserHandle | TakeOver(cancelId: int, filename: string, url: string)

  /**
    `onDeterminingFilename`: a `blob:` or `data:` download is left alone;
    any other is cancelled and its file name and URL go to the save dialog.
   */
  function Intercept(id: int, url: string, filename: string): (r: Interception)
    ensures r.LetBrowserHandle? <==> LeftToBrowser(url)
    ensures r.TakeOver? ==> r == TakeOver(id, filename, url)
  {
    if StartsWith(url, "blob:") || StartsWith(url, "data:") then LetBrowserHandle
    else TakeOver(id, filename, url)
  }

  /** Every URL with one of the two schemes is left alone; a web URL is taken over. */
  lemma SchemesLeftAlone(rest: string, id: int, filename: string)
    ensures Intercept(id, "blob:" + rest, filename).LetBrowserHandle?
    ensures Intercept(id, "data:" + rest, filename).LetBrowserHandle?
    ensures Intercept(id, "https:" + rest, filename).TakeOver?
  {
    assert ("blob:" + rest)[..5] == "blob:";
    assert ("data:" + rest)[..5] == "data:";
    assert ("https:" + rest)[0] == 'h';
  }
}

=== FILE: navigation.dfy ===
/**
  Navigation between directories: the current path, the back and forward
  stacks (top of stack = last element), and the toolbar's back, forward and up
  buttons. The listing server is outside the model: it is a parameter, a
  function from the requested path to the `Reply` that request gets.
 */
module Navigation {
  import opened Common
  import opened Paths
  import Sel = Selection

  datatype Nav = Nav(current: string, back: seq<string>, forward: seq<string>, selection: Sel.Selection)

  /**
    The outcome of the listing request. `Listed(p)`: the server answered with a
    listing whose current path is `p`. `ErrorReply`: the server answered with an
    error body, which carries no current path, so the page's current path
    becomes undefined; `""` stands for it, as both are falsy. `NoReply`: the
    request itself failed and the current path is kept.
   */
  datatype Reply = Listed(currentPath: string) | ErrorReply | NoReply

  /** What the listing request for each path gets back. */
  type Server = string -> Reply

  /** The current path once a request's outcome is known. */
  function Landing(current: string, reply: Reply): (r: string)
    ensures reply.Listed? ==> r == reply.currentPath
    // the page's path is falsy afterwards exactly when the reply made it so or left it so
    ensures r == "" <==> reply.ErrorReply? || (reply.Listed? && reply.currentPath == "") || (reply.NoReply? && current == "")
  {
    match reply
    case Listed(p) => p
    case ErrorReply => ""
    case NoReply => current
  }

  /**
    `navigateTo(path, addToHistory)`: with history, a non-empty current path is
    pushed on the back stack and the forward stack is emptied; the selection is
    always cleared; the current path is then set from what the server answers
    for `path`.
   */
  function NavigateTo(nav: Nav, path: string, addToHistory: bool, serve: Server): (r: Nav)
    ensures r.selection == Sel.Empty
    ensures addToHistory ==> r.forward == []
    ensures !addToHistory ==> r.forward == nav.forward && r.back == nav.back
    ensures addToHistory && nav.current != "" ==> r.back == nav.back + [nav.current]
    ensures addToHistory && nav.current == "" ==> r.back == nav.back
    ensures serve(path).Listed? ==> r.current == serve(path).currentPath
    ensures serve(path).ErrorReply? ==> r.current == ""
    ensures serve(path).NoReply? ==> r.current == nav.current
  {
    var back := if addToHistory && nav.current != "" then nav.back + [nav.current] else nav.back;
    var forward := if addToHistory then [] else nav.forward;
    Nav(Landing(nav.current, serve(path)), back, forward, Sel.Empty)
  }

  /**
    The back button: the current path goes on the forward stack and the back
    stack's top is requested.
   */
  function Back(nav: Nav, serve: Server): (r: Nav)
    ensures |nav.back| == 0 ==> r == nav
    ensures |nav.back| > 0 ==>
      && r.back == nav.back[..|nav.back| - 1]
      && r.forward == nav.forward + [nav.current]
      && r.selection == Sel.Empty
      && r.current == Landing(nav.current, serve(nav.back[|nav.back| - 1]))
  {
    if |nav.back| > 0 then
      var target := nav.back[|nav.back| - 1];
      var pushed := nav.(forward := nav.forward + [nav.current], back := nav.back[..|nav.back| - 1]);
      NavigateTo(pushed, target, false, serve)
    else
      nav
  }

  /** The forward button, the mirror image of `Back`. */
  function Forward(nav: Nav, serve: Server): (r: Nav)
    ensures |nav.forward| == 0 ==> r == nav
    ensures |nav.forward| > 0 ==>
      && r.forward == nav.forward[..|nav.forward| - 1]
      && r.back == nav.back + [nav.current]
      && r.selection == Sel.Empty
      && r.current == Landing(nav.current, serve(nav.forward[|nav.forward| - 1]))
  {
    if |nav.forward| > 0 then
      var target := nav.forward[|nav.forward| - 1];
      var pushed := nav.(back := nav.back + [nav.current], forward := nav.forward[..|nav.forward| - 1]);
      NavigateTo(pushed, target, false, serve)
    else
      nav
  }

  /**
    The up button: disabled at a root; otherwise a navigation (with history) to
    the parent directory, if the path has a separator.
   */
  function Up(nav: Nav, serve: Server): (r: Nav)
    ensures IsRoot(nav.current) || ParentDir(nav.current).None? ==> r == nav
    ensures !IsRoot(nav.current) && ParentDir(nav.current).Some? ==>
      && r.back == nav.back + [nav.current]
      && r.forward == [] && r.selection == Sel.Empty
      && r.current == Landing(nav.current, serve(ParentDir(nav.current).value))
  {
    if IsRoot(nav.current) then nav
    else
      match ParentDir(nav.current)
      case None => nav
      case Some(parent) => NavigateTo(nav, parent, true, serve)
  }

  /** At `/` or a drive root the up button does nothing, whatever the server would answer. */
  lemma UpAtRootStays(nav: Nav, serve: Server)
    requires nav.current == "/" || (|nav.current| == 3 && nav.current[1] == ':' && nav.current[2] == '\\')
    ensures Up(nav, serve) == nav
  {
    RootIsOwnParent(nav.current);
  }

  /** A server that lists every requested path under that path, as a successful listing does. */
  function Echo(path: string): (r: Reply)
    ensures r.Listed? && r.currentPath == path
  {
    Listed(path)
  }

  /** With an echoing server, the back button lands on the path that was on top of the back stack. */
  lemma BackVisitsTop(nav: Nav)
    requires |nav.back| > 0
    ensures Back(nav, Echo).current == nav.back[|nav.back| - 1]
  {
  }

  /** With an echoing server, the forward button lands on the path that was on top of the forward stack. */
  lemma ForwardVisitsTop(nav: Nav)
    requires |nav.forward| > 0
    ensures Forward(nav, Echo).current == nav.forward[|nav.forward| - 1]
  {
  }

  /** With an echoing server, the up button lands on the parent directory. */
  lemma UpVisitsParent(nav: Nav)
    requires !IsRoot(nav.current) && ParentDir(nav.current).Some?
    ensures Up(nav, Echo).current == ParentDir(nav.current).value
    ensures Up(nav, Echo).back == nav.back + [nav.current]
  {
  }

  /** With an echoing server, back followed by forward restores the current path and both stacks. */
  lemma BackThenForward(nav: Nav)
    requires |nav.back| > 0
    ensures var f := Forward(Back(nav, Echo), Echo);
      f.current == nav.current && f.back == nav.back && f.forward == nav.forward
  {
    var b := Back(nav, Echo);
    assert b.forward[|b.forward| - 1] == nav.current;
    assert b.forward[..|b.forward| - 1] == nav.forward;
    assert b.back + [b.current] == nav.back;
  }

  /** With an echoing server, forward followed by back restores the current path and both stacks. */
  lemma ForwardThenBack(nav: Nav)
    requires |nav.forward| > 0
    ensures var b := Back(Forward(nav, Echo), Echo);
      b.current == nav.current && b.back == nav.back && b.forward == nav.forward
  {
    var f := Forward(nav, Echo);
    assert f.back[|f.back| - 1] == nav.current;
    assert f.back[..|f.back| - 1] == nav.back;
    assert f.forward + [f.current] == nav.forward;
  }

  /**
    With an echoing server, visiting a directory and pressing back returns to
    where one was, with only the visited directory on the forward stack.
   */
  lemma NavigateThenBack(nav: Nav, path: string)
    requires nav.current != ""
    ensures var b := Back(NavigateTo(nav, path, true, Echo), Echo);
      b.current == nav.current && b.back == nav.back && b.forward == [path]
  {
    var n := NavigateTo(nav, path, true, Echo);
    assert n.back[..|n.back| - 1] == nav.back;
  }

  /** Paths on either stack are never empty when the current path never was. */
  ghost predicate StacksNonEmpty(nav: Nav) {
    && (forall i :: 0 <= i < |nav.back| ==> nav.back[i] != "")
    && (forall i :: 0 <= i < |nav.forward| ==> nav.forward[i] != "")
  }

  /**
    Back and forward keep every stacked path non-empty; the current path stays
    non-empty unless the server answers with an error body.
   */
  lemma StacksStayNonEmpty(nav: Nav, serve: Server, goBack: bool)
    requires StacksNonEmpty(nav) && nav.current != ""
    requires forall p :: serve(p).Listed? ==> serve(p).currentPath != ""
    ensures var r := if goBack then Back(nav, serve) else Forward(nav, serve);
      && StacksNonEmpty(r)
      && ((forall p :: !serve(p).ErrorReply?) ==> r.current != "")
  {
  }

  /**
    After an error body the current path is lost: the next navigation with
    history pushes nothing on the back stack, and the back button puts the
    lost (empty) path on the forward stack.
   */
  lemma ErrorReplyLosesPlace(nav: Nav, path: string, next: string, serve: Server)
    requires |nav.back| > 0 && serve(path) == ErrorReply
    ensures var e := NavigateTo(nav, path, false, serve);
      && e.current == "" && e.back == nav.back && e.forward == nav.forward
      && NavigateTo(e, next, true, serve).back == nav.back
      && Back(e, serve).forward == nav.forward + [""]
  {
  }
}

=== FILE: openwith.dfy ===
/**
  "Open with": the internal viewers and the extensions each accepts, the
  decision between running a remembered choice and asking, the list of
  choices the dialog offers, and what running a choice does.
 */
module OpenWith {
  import opened Text
  import opened Files
  import Icons

  /** An internal viewer: its identifier and the lower-cased extensions it opens. */
  datatype Viewer = Viewer(id: string, exts: seq<string>)

  /** The internal viewers, in the order the dialog lists them. */
  const Viewers: seq<Viewer> := [
    Viewer("image", [".jpg", ".png", ".gif", ".webp", ".svg"]),
    Viewer("video", [".mp4", ".webm", ".ogv", ".mov", ".mkv"]),
    Viewer("audio", [".mp3", ".wav", ".ogg", ".m4a"]),
    Viewer("pdf", [".pdf"]),
    Viewer("zip", [".zip"]),
    Viewer("code", [".js", ".json", ".html", ".css", ".ts", ".py", ".md", ".txt"])]

  /** The identifiers of `viewers`, in order. */
  function Ids(viewers: seq<Viewer>): (ids: seq<string>)
    ensures |ids| == |viewers|
  {
    if |viewers| == 0 then [] else [viewers[0].id] + Ids(viewers[1..])
  }

  lemma {:induction false} IdsAt(viewers: seq<Viewer>)
    ensures forall k :: 0 <= k < |viewers| ==> Ids(viewers)[k] == viewers[k].id
    decreases |viewers|
  {
    if |viewers| > 0 {
      IdsAt(viewers[1..]);
      assert Ids(viewers) == [viewers[0].id] + Ids(viewers[1..]);
    }
  }

  /** The keys of the viewer table; `ViewerIds` shows they are the table's identifiers. */
  const ViewerKeys: seq<string> := ["image", "video", "audio", "pdf", "zip", "code"]

  /** `INTERNAL_VIEWERS[appId]` names a viewer. */
  predicate IsViewerId(id: string) {
    id in ViewerKeys
  }

  /** The viewers of `table` that accept `ext`, in table order. */
  function Compatible(table: seq<Viewer>, ext: string): (r: seq<Viewer>)
    ensures |r| <= |table|
  {
    if |table| == 0 then []
    else if ext in table[0].exts then [table[0]] + Compatible(table[1..], ext)
    else Compatible(table[1..], ext)
  }

  /** Each viewer that accepts `ext` is kept as many times as it occurs in the table; no other is. */
  lemma {:induction false} CompatibleCounts(table: seq<Viewer>, ext: string)
    ensures forall v :: multiset(Compatible(table, ext))[v] == if ext in v.exts then multiset(table)[v] else 0
    decreases |table|
  {
    if |table| > 0 {
      CompatibleCounts(table[1..], ext);
      assert table == [table[0]] + table[1..];
      assert multiset(table) == multiset{table[0]} + multiset(table[1..]);
    }
  }

  /** The compatible viewers are exactly the viewers of the table that accept `ext`. */
  lemma {:induction false} CompatibleMembers(table: seq<Viewer>, ext: string)
    ensures forall k :: 0 <= k < |Compatible(table, ext)| ==>
      Compatible(table, ext)[k] in table && ext in Compatible(table, ext)[k].exts
    ensures forall v :: v in table && ext in v.exts ==> v in Compatible(table, ext)
    decreases |table|
  {
    if |table| > 0 {
      CompatibleMembers(table[1..], ext);
      assert forall v :: v in table ==> v == table[0] || v in table[1..];
    }
  }

  /** Filtering distributes over concatenation, so the compatible viewers keep the table's order. */
  lemma {:induction false} CompatibleAppend(a: seq<Viewer>, b: seq<Viewer>, ext: string)
    ensures Compatible(a + b, ext) == Compatible(a, ext) + Compatible(b, ext)
    decreases |a|
  {
    if |a| > 0 {
      assert (a + b)[1..] == a[1..] + b;
      CompatibleAppend(a[1..], b, ext);
    } else {
      assert a + b == b;
    }
  }

  /**
    The dialog's choices: the compatible internal viewers, then the browser tab,
    then the system default, then the code editor unless it is already listed.
   */
  function Options(compatible: seq<string>): (r: seq<string>)
    ensures |r| >= |compatible| + 2
    ensures r[..|compatible|] == compatible
    ensures r[|compatible|] == "browser" && r[|compatible| + 1] == "system"
    ensures "code" in compatible ==> |r| == |compatible| + 2
    ensures "code" !in compatible ==> |r| == |compatible| + 3 && r[|r| - 1] == "code"
  {
    var r := compatible + ["browser", "system"];
    assert r[..|compatible|] == compatible;
    if "code" in compatible then r else r + ["code"]
  }

  /** The choices offered for a lower-cased extension. */
  function OptionsFor(ext: string): seq<string> {
    Options(Ids(Compatible(Viewers, ext)))
  }

  /** With the code editor at most once among the compatible viewers, the dialog offers it exactly once. */
  lemma OptionsListCodeOnce(compatible: seq<string>)
    requires multiset(compatible)["code"] <= 1
    ensures multiset(Options(compatible))["code"] == 1
  {
    var r := Options(compatible);
    assert r == compatible + r[|compatible|..];
    if "code" in compatible {
      assert r[|compatible|..] == ["browser", "system"];
    } else {
      assert r[|compatible|..] == ["browser", "system", "code"];
    }
  }

  /** The code editor is offered exactly once, whatever the extension. */
  lemma CodeOfferedOnce(ext: string)
    ensures multiset(OptionsFor(ext))["code"] == 1
  {
    CodeCountInCompatible(ext);
    OptionsListCodeOnce(Ids(Compatible(Viewers, ext)));
  }

  /** The identifiers of the internal viewers. */
  lemma ViewerIds()
    ensures Ids(Viewers) == ViewerKeys
  {
  }

  /** Among the compatible viewers of the table, at most one is the code editor. */
  lemma CodeCountInCompatible(ext: string)
    ensures multiset(Ids(Compatible(Viewers, ext)))["code"] <= 1
  {
    var front := Viewers[..5];
    var last := [Viewers[5]];
    assert Viewers == front + last;
    CompatibleAppend(front, last, ext);
    IdsAppendAll(Compatible(front, ext), Compatible(last, ext));
    NoCodeBefore(ext);
    assert |Compatible(last, ext)| <= 1;
  }

  lemma NoCodeBefore(ext: string)
    ensures "code" !in Ids(Compatible(Viewers[..5], ext))
  {
    var c := Compatible(Viewers[..5], ext);
    CompatibleMembers(Viewers[..5], ext);
    IdsAt(c);
    forall k | 0 <= k < |c| ensures c[k].id != "code" {
      assert c[k] in Viewers[..5];
    }
  }

  lemma {:induction false} IdsAppendAll(a: seq<Viewer>, b: seq<Viewer>)
    ensures Ids(a + b) == Ids(a) + Ids(b)
    decreases |a|
  {
    if |a| > 0 {
      assert (a + b)[1..] == a[1..] + b;
      IdsAppendAll(a[1..], b);
    } else {
      assert a + b == b;
    }
  }

  // ---------------------------------------------------------------------------
  // Opening a file

  /** What opening a file does: run a remembered choice, or show the dialog with these choices. */
  datatype Decision = Run(appId: string) | Ask(choices: seq<string>)

  /** The remembered choice for a lower-cased extension; a missing one reads as the empty string. */
  function Preference(prefs: map<string, string>, ext: string): string {
    if ext in prefs then prefs[ext] else ""
  }

  /**
    `handleFileOpen`: a non-empty remembered choice for the extension runs, unless
    the dialog is forced; otherwise the dialog lists the compatible viewers.
   */
  function HandleFileOpen(ext: string, prefs: map<string, string>, forceModal: bool): (d: Decision)
    ensures !forceModal && Preference(prefs, ToLower(ext)) != "" ==> d == Run(Preference(prefs, ToLower(ext)))
    ensures forceModal || Preference(prefs, ToLower(ext)) == "" ==> d == Ask(OptionsFor(ToLower(ext)))
  {
    var e := ToLower(ext);
    var preferred := Preference(prefs, e);
    if !forceModal && preferred != "" then Run(preferred)
    else
      var compatible := Compatible(Viewers, e);
      if !forceModal && |compatible| == 1 && preferred == "" then Ask(Options(Ids(compatible)))
      else if !forceModal && |compatible| == 0 && preferred == "" then Ask(Options([]))
      else Ask(Options(Ids(compatible)))
  }

  /** Ticking "always open with" remembers the choice under the lower-cased extension. */
  function SavePreference(prefs: map<string, string>, ext: string, appId: string): (r: map<string, string>)
    ensures Preference(r, ToLower(ext)) == appId
    ensures forall e :: e != ToLower(ext) ==> Preference(r, e) == Preference(prefs, e)
  {
    prefs[ToLower(ext) := appId]
  }

  /** A remembered choice is run the next time, for the extension in any letter case. */
  lemma RememberedChoiceRuns(prefs: map<string, string>, ext: string, other: string, appId: string)
    requires appId != "" && ToLower(other) == ToLower(ext)
    ensures HandleFileOpen(other, SavePreference(prefs, ext, appId), false) == Run(appId)
  {
  }

  /** Forcing the dialog always asks, whatever was remembered. */
  lemma ForcedAlwaysAsks(ext: string, prefs: map<string, string>)
    ensures HandleFileOpen(ext, prefs, true).Ask?
    ensures "browser" in HandleFileOpen(ext, prefs, true).choices
  {
    var ids := Ids(Compatible(Viewers, ToLower(ext)));
    assert Options(ids)[|ids|] == "browser";
  }

  // ---------------------------------------------------------------------------
  // Running a choice

  /** What running a choice does. */
  datatype Action = OpenViewer(viewer: string) | BrowserTab | SystemDefault | NotFound(appId: string)

  /** `executeOpenWith`: an internal viewer, the browser, the system default, or an error message. */
  function ExecuteOpenWith(appId: string): (a: Action)
    ensures a.OpenViewer? <==> IsViewerId(appId)
    ensures a.OpenViewer? ==> a.viewer == appId
    ensures a.NotFound? <==> !IsViewerId(appId) && appId != "browser" && appId != "system"
  {
    if IsViewerId(appId) then OpenViewer(appId)
    else if appId == "browser" then BrowserTab
    else if appId == "system" then SystemDefault
    else NotFound(appId)
  }

  /** The compatible viewers' identifiers are internal viewer identifiers. */
  lemma CompatibleIdsKnown(ext: string)
    ensures forall k :: 0 <= k < |Ids(Compatible(Viewers, ext))| ==> IsViewerId(Ids(Compatible(Viewers, ext))[k])
  {
    CompatibleIdsAmong(Viewers, ext);
    ViewerIds();
  }

  /** The identifiers of the compatible viewers are identifiers of the table. */
  lemma CompatibleIdsAmong(table: seq<Viewer>, ext: string)
    ensures forall k :: 0 <= k < |Ids(Compatible(table, ext))| ==> Ids(Compatible(table, ext))[k] in Ids(table)
  {
    var c := Compatible(table, ext);
    var ids := Ids(c);
    CompatibleMembers(table, ext);
    IdsAt(c);
    IdsAt(table);
    forall k | 0 <= k < |ids| ensures ids[k] in Ids(table) {
      assert c[k] in table;
      var j :| 0 <= j < |table| && table[j] == c[k];
      assert Ids(table)[j] == ids[k];
    }
  }


  /** A list of internal viewers, completed by `Options`, holds only choices that can be run. */
  lemma OptionsRunnable(compatible: seq<string>)
    requires forall k :: 0 <= k < |compatible| ==> IsViewerId(compatible[k])
    ensures forall k :: 0 <= k < |Options(compatible)| ==> !ExecuteOpenWith(Options(compatible)[k]).NotFound?
  {
    var r := Options(compatible);
    assert ViewerKeys[5] == "code";
    forall k | 0 <= k < |r| ensures !ExecuteOpenWith(r[k]).NotFound? {
      assert IsViewerId(r[k]) || r[k] == "browser" || r[k] == "system" by {
        if k < |compatible| {
          assert r[k] == r[..|compatible|][k];
        }
      }
      KnownChoiceRuns(r[k]);
    }
  }

  lemma KnownChoiceRuns(id: string)
    requires IsViewerId(id) || id == "browser" || id == "system"
    ensures !ExecuteOpenWith(id).NotFound?
  {
  }


  /** Every choice the dialog offers can be run. */
  lemma OfferedChoicesRun(ext: string)
    ensures forall k :: 0 <= k < |OptionsFor(ext)| ==> !ExecuteOpenWith(OptionsFor(ext)[k]).NotFound?
  {
    CompatibleIdsKnown(ext);
    OptionsRunnable(Ids(Compatible(Viewers, ext)));
  }

  /** A file the image, audio, video, PDF or archive viewer opens shows that kind's icon. */
  lemma ViewerAgreesWithIcon(f: FileEntry)
    requires !f.isDirectory
    ensures var e := ToLower(f.ext);
      && (e in Viewers[0].exts ==> Icons.AdwaitaIcon(f) == "icons/adwaita/file-image.svg")
      && (e in Viewers[1].exts ==> Icons.AdwaitaIcon(f) == "icons/adwaita/file-video.svg")
      && (e in Viewers[2].exts ==> Icons.AdwaitaIcon(f) == "icons/adwaita/file-audio.svg")
      && (e in Viewers[3].exts ==> Icons.AdwaitaIcon(f) == "icons/adwaita/file-pdf.svg")
      && (e in Viewers[4].exts ==> Icons.AdwaitaIcon(f) == "icons/adwaita/file-archive.svg")
  {
    ViewerListsInIconLists();
    Icons.IconOfKind(f);
  }

  /** Each of these viewers accepts only extensions of the matching icon list. */
  lemma ViewerListsInIconLists()
    ensures forall e :: e in Viewers[0].exts ==> e in Icons.ImageExts
    ensures Viewers[1].exts == Icons.VideoExts
    ensures Viewers[2].exts == Icons.AudioExts
    ensures Viewers[3].exts == [".pdf"]
    ensures forall e :: e in Viewers[4].exts ==> e in Icons.ArchiveExts
  {
  }
}

=== FILE: paths.dfy ===
/**
  Path strings in the file manager: the "up" target, the root test that
  disables the up button, the destination of a paste and the target of a
  rename. Paths may use `/` (POSIX) or `\` (Windows, with a drive such as `C:`).
 */
module Paths {
  import opened Common
  import opened Text

  /** The separator a paste or rename uses: `\` if the path already has one, else `/`. */
  function StyleSep(path: string): (c: char)
    ensures IsSep(c)
    ensures c == '\\' <==> '\\' in path
  {
    if '\\' in path then '\\' else '/'
  }

  /** `s.split(c)[0]`: the text before the first `c`, or all of `s`. */
  function BeforeFirst(s: string, c: char): (r: string)
    ensures StartsWith(s, r)
    ensures c !in r
    ensures |r| < |s| ==> s[|r|] == c
  {
    if |s| == 0 then ""
    else if s[0] == c then ""
    else
      var rest := BeforeFirst(s[1..], c);
      assert s[1..][..|rest|] == rest;
      assert ([s[0]] + rest) == s[..|rest| + 1];
      [s[0]] + rest
  }

  /** The toolbar's root test: empty, `/`, or a short path with a drive colon (`C:`, `C:\`). */
  predicate IsRoot(path: string) {
    path == "" || path == "/" || (':' in path && |path| <= 3)
  }

  /**
    The "up" button: the text before the last separator. An empty result becomes
    `/`, or the drive root on a path with a colon; a bare drive `X:` gains a `\`.
    `None` when the path has no separator, in which case the button does nothing.
   */
  function ParentDir(path: string): (r: Option<string>)
    ensures r.None? <==> NoSep(path)
    ensures r.Some? ==> |r.value| > 0
    // the ordinary case: the proper prefix before the final component
    ensures r.Some? && LastSepIndex(path) > 0 && path[LastSepIndex(path) - 1] != ':' ==>
      var p := r.value;
      && |p| < |path| && StartsWith(path, p)
      && IsSep(path[|p|]) && NoSep(path[|p| + 1..])
    // a drive prefix is completed to the drive root
    ensures r.Some? && LastSepIndex(path) > 0 && path[LastSepIndex(path) - 1] == ':' ==>
      r.value == path[..LastSepIndex(path)] + "\\"
    // a path whose only separator leads it climbs to a root
    ensures r.Some? && LastSepIndex(path) == 0 && ':' !in path ==> r.value == "/"
    // ... or, with a drive colon, to the text before the first `\` followed by `\`
    ensures r.Some? && LastSepIndex(path) == 0 && ':' in path ==>
      r.value == BeforeFirst(path, '\\') + "\\"
  {
    var k := LastSepIndex(path);
    if k == -1 then None
    else
      var prefix := path[..k];
      var parent :=
        if prefix != "" then prefix
        else if ':' in path then BeforeFirst(path, '\\') + "\\"
        else "/";
      if EndsWith(parent, ":") then Some(parent + "\\") else Some(parent)
  }

  /** Climbing from a root with a separator stays at that root. */
  lemma RootIsOwnParent(path: string)
    requires path == "/" || (|path| == 3 && path[1] == ':' && path[2] == '\\')
    ensures IsRoot(path)
    ensures ParentDir(path) == Some(path)
  {
    if path != "/" {
      assert LastSepIndex(path) == 2;
      assert path[..2] + "\\" == path;
    }
  }

  /**
    The paste destination of `srcPath` inside the directory `currentPath`: the
    directory, exactly one separator in the directory's own style, then the
    last component of the source.
   */
  function PasteDest(currentPath: string, srcPath: string): (r: string)
    ensures var base := LastPiece(srcPath);
      var sep := StyleSep(currentPath);
      && StartsWith(r, currentPath)
      && EndsWith(r, base)
      && |r| == |currentPath| + |base| + (if EndsWith(currentPath, [sep]) then 0 else 1)
      && r[|r| - |base| - 1] == sep
  {
    var sep := StyleSep(currentPath);
    var dir := if EndsWith(currentPath, [sep]) then currentPath else currentPath + [sep];
    var base := LastPiece(srcPath);
    var r := dir + base;
    assert r[..|currentPath|] == currentPath;
    assert r[|r| - |base|..] == base;
    assert r[|r| - |base| - 1] == dir[|dir| - 1];
    r
  }

  /** The last component of a path with a separator-free tail appended after a separator. */
  lemma LastPieceAfterSep(dir: string, base: string)
    requires |dir| > 0 && IsSep(dir[|dir| - 1]) && NoSep(base)
    ensures LastPiece(dir + base) == base
  {
    var s := dir + base;
    BaseNameAfterLastSep(s);
    var k := LastSepIndex(s);
    assert IsSep(s[|dir| - 1]);
    assert forall j :: |dir| <= j < |s| ==> s[j] == base[j - |dir|];
    assert k == |dir| - 1;
    assert s[k + 1..] == base;
  }

  /** A pasted entry keeps the name of its source. */
  lemma PasteKeepsName(currentPath: string, srcPath: string)
    ensures LastPiece(PasteDest(currentPath, srcPath)) == LastPiece(srcPath)
  {
    var r := PasteDest(currentPath, srcPath);
    var base := LastPiece(srcPath);
    var dir := r[..|r| - |base|];
    assert r == dir + base;
    LastPieceAfterSep(dir, base);
  }

  /** In `a + [c] + b` with a separator `c` and a separator-free `b`, the last separator is `c`. */
  lemma LastSepBeforeTail(a: string, c: char, b: string)
    requires IsSep(c) && NoSep(b)
    ensures LastSepIndex(a + [c] + b) == |a|
  {
    var s := a + [c] + b;
    assert IsSep(s[|a|]);
    forall j | |a| < j < |s| ensures !IsSep(s[j]) {
      assert s[j] == b[j - |a| - 1];
    }
  }

  /** Going up from a pasted entry returns to the directory it was pasted into. */
  lemma UpUndoesPaste(currentPath: string, srcPath: string)
    requires |currentPath| > 0
    requires var last := currentPath[|currentPath| - 1]; !IsSep(last) && last != ':'
    ensures ParentDir(PasteDest(currentPath, srcPath)) == Some(currentPath)
  {
    var r := PasteDest(currentPath, srcPath);
    var base := LastPiece(srcPath);
    var sep := StyleSep(currentPath);
    assert !EndsWith(currentPath, [sep]);
    assert r == currentPath + [sep] + base;
    LastSepBeforeTail(currentPath, sep, base);
    assert r[..|currentPath|] == currentPath;
    assert !EndsWith(currentPath, ":");
  }

  // ---------------------------------------------------------------------------
  // Rename

  /** The directory part kept by a rename: up to and including the last separator of the path's style. */
  function DirPart(path: string): (d: string)
    ensures StartsWith(path, d)
    ensures d == "" || d[|d| - 1] == StyleSep(path)
    ensures StyleSep(path) !in path[|d|..]
  {
    var sep := StyleSep(path);
    var k := LastIndexOf(path, sep);
    var tail := path[k + 1..];
    forall j | 0 <= j < |tail| ensures tail[j] != sep {
      assert tail[j] == path[k + 1 + j];
    }
    path[..k + 1]
  }

  /** The current name as a rename sees it: what follows the directory part. */
  function NameOf(path: string): string {
    path[|DirPart(path)|..]
  }

  /** The rename handler's new path: the old directory part followed by the new name. */
  function RenameTarget(oldPath: string, newName: string): (r: string)
    ensures EndsWith(r, newName)
    ensures r[..|r| - |newName|] == DirPart(oldPath)
  {
    var r := DirPart(oldPath) + newName;
    assert r[..|r| - |newName|] == DirPart(oldPath);
    assert r[|r| - |newName|..] == newName;
    r
  }

  /** Renaming to the current name changes nothing. */
  lemma RenameToSameName(path: string)
    ensures RenameTarget(path, NameOf(path)) == path
  {
    assert DirPart(path) + path[|DirPart(path)|..] == path;
  }

  /** A second rename replaces the first: only the last new name matters. */
  lemma RenameTwice(path: string, first: string, second: string)
    requires NoSep(first)
    ensures RenameTarget(RenameTarget(path, first), second) == RenameTarget(path, second)
  {
    var d := DirPart(path);
    var p1 := RenameTarget(path, first);
    assert p1 == d + first;
    var sep := StyleSep(path);
    assert StyleSep(p1) == sep by {
      if '\\' in path {
        assert LastIndexOf(path, '\\') >= 0;
        assert p1[|d| - 1] == '\\';
      } else {
        forall i | 0 <= i < |p1| ensures p1[i] != '\\' {
          if i < |d| {
            assert p1[i] == path[i];
          } else {
            assert p1[i] == first[i - |d|];
          }
        }
      }
    }
    var k := LastIndexOf(p1, sep);
    if d == "" {
      assert sep !in p1 by {
        forall i | 0 <= i < |p1| ensures p1[i] != sep {
          assert p1[i] == first[i];
        }
      }
    } else {
      assert p1[|d| - 1] == sep;
      assert forall j :: |d| <= j < |p1| ==> p1[j] == first[j - |d|];
      assert k == |d| - 1;
    }
    assert DirPart(p1) == d;
  }
}

=== FILE: selection.dfy ===
/**
  Multi-selection in the file view: plain click, Ctrl/Meta toggle, Shift range
  and Ctrl+Shift range union over the entries in the order they are shown.
 */
module Selection {
  import opened Common
  import opened Files

  /** The modifier keys held during a click. */
  datatype Keys = Keys(shift: bool, ctrl: bool, meta: bool)

  /**
    The selection: the selected entries in selection order, the index of the
    anchor entry in the shown list (`-1` for none), and the focused entry,
    which is the last selected one.
   */
  datatype Selection = Selection(selected: seq<FileEntry>, anchor: int, focused: Option<FileEntry>)

  const Empty := Selection([], -1, None)

  /** The anchor is an index or `-1`, the only values the file manager stores. */
  predicate Valid(st: Selection) {
    st.anchor >= -1
  }

  /** The focused entry is the last selected one, or none when nothing is selected. */
  predicate FocusIsLast(st: Selection) {
    if |st.selected| == 0 then st.focused == None
    else st.focused == Some(st.selected[|st.selected| - 1])
  }

  function Min(a: int, b: int): int { if a <= b then a else b }
  function Max(a: int, b: int): int { if a <= b then b else a }

  /** JavaScript `s.slice(from, to)` for non-negative bounds: both are clamped to the length. */
  function Slice<T>(s: seq<T>, from: nat, to: nat): (r: seq<T>)
    requires from <= to
    ensures to <= |s| ==> r == s[from..to]
    ensures |r| <= to - from
    ensures from <= |s| ==> |r| == Min(to, |s|) - from
    ensures forall k :: 0 <= k < |r| ==> from + k < |s| && r[k] == s[from + k]
  {
    var hi := Min(to, |s|);
    var lo := Min(from, hi);
    s[lo..hi]
  }

  /**
    Ctrl+Shift union: walks `range` in order and appends each entry whose path is
    not yet selected.
   */
  function AddMissing(sel: seq<FileEntry>, range: seq<FileEntry>): (r: seq<FileEntry>)
    ensures |sel| <= |r| && r[..|sel|] == sel
    decreases |range|
  {
    if |range| == 0 then sel
    else
      var f := range[0];
      var next := if HasPath(sel, f.path) then sel else sel + [f];
      var r := AddMissing(next, range[1..]);
      assert r[..|sel|] == r[..|next|][..|sel|];
      r
  }

  /** One range entry: it is appended exactly when its path is not yet selected. */
  lemma AddMissingOne(sel: seq<FileEntry>, f: FileEntry)
    ensures HasPath(sel, f.path) ==> AddMissing(sel, [f]) == sel
    ensures !HasPath(sel, f.path) ==> AddMissing(sel, [f]) == sel + [f]
  {
    assert [f][1..] == [];
  }

  /**
    A range split in two is added part by part, so the entries are appended in
    range order.
   */
  lemma {:induction false} AddMissingAppend(sel: seq<FileEntry>, r1: seq<FileEntry>, r2: seq<FileEntry>)
    ensures AddMissing(sel, r1 + r2) == AddMissing(AddMissing(sel, r1), r2)
    decreases |r1|
  {
    if |r1| == 0 {
      assert r1 + r2 == r2;
    } else {
      var f := r1[0];
      var next := if HasPath(sel, f.path) then sel else sel + [f];
      assert (r1 + r2)[0] == f;
      assert (r1 + r2)[1..] == r1[1..] + r2;
      AddMissingAppend(next, r1[1..], r2);
    }
  }

  /** Only entries of the range whose paths were not selected are appended. */
  lemma {:induction false} AddMissingAppendsNew(sel: seq<FileEntry>, range: seq<FileEntry>)
    ensures forall k :: |sel| <= k < |AddMissing(sel, range)| ==>
      AddMissing(sel, range)[k] in range && !HasPath(sel, AddMissing(sel, range)[k].path)
    decreases |range|
  {
    if |range| > 0 {
      var f := range[0];
      var next := if HasPath(sel, f.path) then sel else sel + [f];
      var r := AddMissing(sel, range);
      assert r == AddMissing(next, range[1..]);
      AddMissingAppendsNew(next, range[1..]);
      PrefixPaths(sel, next);
      forall k | |sel| <= k < |r| ensures r[k] in range && !HasPath(sel, r[k].path) {
        if k < |next| {
          assert r[k] == r[..|next|][k] == next[k] == f;
        } else {
          assert r[k] in range[1..];
        }
      }
    }
  }

  /** Afterwards every path of the range is selected. */
  lemma {:induction false} AddMissingCovers(sel: seq<FileEntry>, range: seq<FileEntry>)
    ensures forall k :: 0 <= k < |range| ==> HasPath(AddMissing(sel, range), range[k].path)
    decreases |range|
  {
    if |range| > 0 {
      var f := range[0];
      var next := if HasPath(sel, f.path) then sel else sel + [f];
      var r := AddMissing(sel, range);
      assert r == AddMissing(next, range[1..]);
      assert HasPath(next, f.path) by {
        if !HasPath(sel, f.path) {
          assert next[|sel|] == f;
        }
      }
      PrefixPaths(next, r);
      AddMissingCovers(next, range[1..]);
      forall k | 1 <= k < |range| ensures HasPath(r, range[k].path) {
        assert range[k] == range[1..][k - 1];
      }
    }
  }

  /** Distinct selected paths stay distinct. */
  lemma {:induction false} AddMissingDistinct(sel: seq<FileEntry>, range: seq<FileEntry>)
    ensures DistinctPaths(sel) ==> DistinctPaths(AddMissing(sel, range))
    decreases |range|
  {
    if |range| > 0 && DistinctPaths(sel) {
      var f := range[0];
      var next := if HasPath(sel, f.path) then sel else sel + [f];
      assert DistinctPaths(next) by {
        if !HasPath(sel, f.path) {
          forall i, j | 0 <= i < j < |next| ensures next[i].path != next[j].path {
            assert next[i] == sel[i];
            if j < |sel| {
              assert next[j] == sel[j];
            }
          }
        }
      }
      AddMissingDistinct(next, range[1..]);
    }
  }

  /** A path found in a prefix of a list is found in the list. */
  lemma PrefixPaths(pre: seq<FileEntry>, s: seq<FileEntry>)
    requires |pre| <= |s| && s[..|pre|] == pre
    ensures forall p :: HasPath(pre, p) ==> HasPath(s, p)
  {
    forall p | HasPath(pre, p) ensures HasPath(s, p) {
      var j :| 0 <= j < |pre| && pre[j].path == p;
      assert s[j] == pre[j];
    }
  }

  /**
    `after` is `before` toggled at `file`'s path: the first entry with that path
    removed, everything else kept in order, or `file` appended when the path
    was not selected.
   */
  ghost predicate Toggled(before: seq<FileEntry>, after: seq<FileEntry>, file: FileEntry) {
    && (HasPath(before, file.path) ==>
          exists k :: 0 <= k < |before| && before[k].path == file.path
                      && !HasPath(before[..k], file.path)
                      && after == before[..k] + before[k + 1..])
    && (!HasPath(before, file.path) ==> after == before + [file])
  }

  /** Ctrl/Meta toggle: removes the first entry with the file's path, or appends the file. */
  function Toggle(sel: seq<FileEntry>, file: FileEntry): (r: seq<FileEntry>)
    ensures Toggled(sel, r, file)
  {
    var k := IndexOfPath(sel, file.path);
    if k != -1 then
      assert !HasPath(sel[..k], file.path);
      sel[..k] + sel[k + 1..]
    else
      sel + [file]
  }

  /** The Shift range from the anchor to the clicked index, both ends included. */
  function Range(rendered: seq<FileEntry>, anchor: nat, idx: nat): (r: seq<FileEntry>)
    ensures Max(anchor, idx) < |rendered| ==> r == rendered[Min(anchor, idx)..Max(anchor, idx) + 1]
    ensures Min(anchor, idx) <= |rendered| ==> |r| == Min(Max(anchor, idx) + 1, |rendered|) - Min(anchor, idx)
    ensures forall k :: 0 <= k < |r| ==> Min(anchor, idx) + k < |rendered| && r[k] == rendered[Min(anchor, idx) + k]
  {
    Slice(rendered, Min(anchor, idx), Max(anchor, idx) + 1)
  }

  /**
    `after` extends `before` with exactly the entries of the range
    `rendered[lo..hi]` (both ends included) whose paths were missing: `before`
    is kept as a prefix, the range is added entry by entry in range order (so
    `AddMissingOne` and `AddMissingAppend` fix the order of the appended
    entries), every appended entry is an entry of the range, every
    path of the range is selected afterwards, no appended entry repeats a path
    of `before`, and distinct paths stay distinct.
   */
  ghost predicate UnionOfRange(rendered: seq<FileEntry>, before: seq<FileEntry>, after: seq<FileEntry>, lo: nat, hi: nat)
    requires lo <= hi
  {
    && |before| <= |after| && after[..|before|] == before
    && after == AddMissing(before, rendered[Min(lo, |rendered|)..Min(hi + 1, |rendered|)])
    && (forall k :: |before| <= k < |after| ==> after[k] in rendered[Min(lo, |rendered|)..Min(hi + 1, |rendered|)])
    && (forall k :: lo <= k <= hi && 0 <= k < |rendered| ==> HasPath(after, rendered[k].path))
    && (forall k :: |before| <= k < |after| ==> !HasPath(before, after[k].path))
    && (DistinctPaths(before) ==> DistinctPaths(after))
  }

  /** Ctrl+Shift: the range joins the current selection without repeating a path. */
  function RangeUnion(rendered: seq<FileEntry>, sel: seq<FileEntry>, anchor: nat, idx: nat): (r: seq<FileEntry>)
    ensures UnionOfRange(rendered, sel, r, Min(anchor, idx), Max(anchor, idx))
  {
    var range := Range(rendered, anchor, idx);
    var r := AddMissing(sel, range);
    AddMissingAppendsNew(sel, range);
    AddMissingCovers(sel, range);
    AddMissingDistinct(sel, range);
    assert range == rendered[Min(Min(anchor, idx), |rendered|)..Min(Max(anchor, idx) + 1, |rendered|)];
    assert forall k :: Min(anchor, idx) <= k <= Max(anchor, idx) && 0 <= k < |rendered| ==> HasPath(r, rendered[k].path) by {
      forall k | Min(anchor, idx) <= k <= Max(anchor, idx) && 0 <= k < |rendered|
        ensures HasPath(r, rendered[k].path)
      {
        assert range[k - Min(anchor, idx)] == rendered[k];
      }
    }
    r
  }

  /** The selected list after a Shift click at `idx`: the range, or with Ctrl/Meta its union with `sel`. */
  function ShiftSelect(rendered: seq<FileEntry>, sel: seq<FileEntry>, anchor: nat, idx: nat, keys: Keys): (r: seq<FileEntry>)
    requires idx < |rendered|
    ensures !keys.ctrl && !keys.meta ==>
      r == rendered[Min(anchor, idx)..Min(Max(anchor, idx) + 1, |rendered|)]
    ensures keys.ctrl || keys.meta ==> UnionOfRange(rendered, sel, r, Min(anchor, idx), Max(anchor, idx))
  {
    if !keys.ctrl && !keys.meta then Range(rendered, anchor, idx)
    else RangeUnion(rendered, sel, anchor, idx)
  }

  /** The focused entry derived from a selected list: its last entry. */
  function LastOf(sel: seq<FileEntry>): (f: Option<FileEntry>)
    ensures f.None? <==> |sel| == 0
    ensures f.Some? ==> f.value == sel[|sel| - 1]
  {
    if |sel| > 0 then Some(sel[|sel| - 1]) else None
  }

  /** The state after a click: the new selected list and anchor, focused on the last selected entry. */
  function Focus(sel: seq<FileEntry>, anchor: int): (r: Selection)
    ensures r.selected == sel && r.anchor == anchor
    ensures FocusIsLast(r)
  {
    Selection(sel, anchor, LastOf(sel))
  }

  /**
    `after` is the state after a Shift click on the shown entry at `idx`: the
    anchor is kept, and the selection is the shown entries from the anchor to
    `idx` (both included, cut at the end of the list), or with Ctrl/Meta the
    old selection joined with that range.
   */
  ghost predicate ShiftClicked(rendered: seq<FileEntry>, before: Selection, keys: Keys, idx: nat, after: Selection)
    requires before.anchor >= 0 && idx < |rendered|
  {
    var lo := Min(before.anchor, idx);
    var hi := Max(before.anchor, idx);
    && after.anchor == before.anchor
    && (!keys.ctrl && !keys.meta ==> after.selected == rendered[lo..Min(hi + 1, |rendered|)])
    && (keys.ctrl || keys.meta ==> UnionOfRange(rendered, before.selected, after.selected, lo, hi))
  }

  /** The click handler on an entry of the shown list `rendered`. */
  function SelectFile(rendered: seq<FileEntry>, st: Selection, file: FileEntry, keys: Keys): (r: Selection)
    requires Valid(st)
    // a file that is not shown changes nothing
    ensures !HasPath(rendered, file.path) ==> r == st
    ensures HasPath(rendered, file.path) ==> FocusIsLast(r)
    ensures Valid(r)
    // plain click
    ensures HasPath(rendered, file.path) && !keys.shift && !keys.ctrl && !keys.meta ==>
      r.selected == [file] && r.anchor == IndexOfPath(rendered, file.path)
    ensures HasPath(rendered, file.path) && keys.shift && st.anchor == -1 && !keys.ctrl && !keys.meta ==>
      r.selected == [file] && r.anchor == IndexOfPath(rendered, file.path)
    // Ctrl or Meta toggle
    ensures HasPath(rendered, file.path) && (keys.ctrl || keys.meta) && !(keys.shift && st.anchor != -1) ==>
      r.anchor == IndexOfPath(rendered, file.path) && Toggled(st.selected, r.selected, file)
    // Shift range from the anchor
    ensures HasPath(rendered, file.path) && keys.shift && st.anchor != -1 ==>
      ShiftClicked(rendered, st, keys, IndexOfPath(rendered, file.path), r)
  {
    var idx := IndexOfPath(rendered, file.path);
    if idx == -1 then st
    else if keys.shift && st.anchor != -1 then
      Focus(ShiftSelect(rendered, st.selected, st.anchor, idx, keys), st.anchor)
    else if keys.ctrl || keys.meta then
      Focus(Toggle(st.selected, file), idx)
    else
      Focus([file], idx)
  }

  // ---------------------------------------------------------------------------
  // Properties relating several clicks

  /** Every selected entry's path is among the shown entries' paths. */
  predicate WithinListing(rendered: seq<FileEntry>, st: Selection) {
    forall k :: 0 <= k < |st.selected| ==> HasPath(rendered, st.selected[k].path)
  }

  /** Every entry of a Shift range is a shown entry. */
  lemma RangeWithinListing(rendered: seq<FileEntry>, anchor: nat, idx: nat)
    ensures forall k :: 0 <= k < |Range(rendered, anchor, idx)| ==> HasPath(rendered, Range(rendered, anchor, idx)[k].path)
  {
    var range := Range(rendered, anchor, idx);
    forall k | 0 <= k < |range| ensures HasPath(rendered, range[k].path) {
      assert range[k] == rendered[Min(anchor, idx) + k];
    }
  }

  /** A Shift range of a list without repeated paths has none either. */
  lemma RangeDistinct(rendered: seq<FileEntry>, anchor: nat, idx: nat)
    requires DistinctPaths(rendered)
    ensures DistinctPaths(Range(rendered, anchor, idx))
  {
    var range := Range(rendered, anchor, idx);
    var lo := Min(anchor, idx);
    forall i, j | 0 <= i < j < |range|
      ensures range[i].path != range[j].path
    {
      assert range[i] == rendered[lo + i] && range[j] == rendered[lo + j];
    }
  }

  /** Toggling a shown file keeps every selected path among the shown ones. */
  lemma ToggleWithinListing(rendered: seq<FileEntry>, sel: seq<FileEntry>, file: FileEntry)
    requires HasPath(rendered, file.path)
    requires forall k :: 0 <= k < |sel| ==> HasPath(rendered, sel[k].path)
    ensures forall k :: 0 <= k < |Toggle(sel, file)| ==> HasPath(rendered, Toggle(sel, file)[k].path)
  {
    var r := Toggle(sel, file);
    var j := IndexOfPath(sel, file.path);
    forall k | 0 <= k < |r| ensures HasPath(rendered, r[k].path) {
      if j != -1 {
        if k < j {
          assert r[k] == sel[k];
        } else {
          assert r[k] == sel[k + 1];
        }
      } else if k < |sel| {
        assert r[k] == sel[k];
      }
    }
  }

  /** Toggling never makes two selected entries share a path. */
  lemma ToggleDistinct(sel: seq<FileEntry>, file: FileEntry)
    requires DistinctPaths(sel)
    ensures DistinctPaths(Toggle(sel, file))
  {
    var k := IndexOfPath(sel, file.path);
    if k != -1 {
      assert Toggle(sel, file) == sel[..k] + sel[k + 1..];
      RemovedAtDistinct(sel, k);
    } else {
      assert Toggle(sel, file) == sel + [file];
      AppendedDistinct(sel, file);
    }
  }

  /** Dropping one entry keeps paths distinct. */
  lemma RemovedAtDistinct(sel: seq<FileEntry>, k: nat)
    requires DistinctPaths(sel) && k < |sel|
    ensures DistinctPaths(sel[..k] + sel[k + 1..])
  {
    var r := sel[..k] + sel[k + 1..];
    forall i, j | 0 <= i < j < |r|
      ensures r[i].path != r[j].path
    {
      var i' := if i < k then i else i + 1;
      var j' := if j < k then j else j + 1;
      assert r[i] == sel[i'] && r[j] == sel[j'];
    }
  }

  /** Appending an entry with a new path keeps paths distinct. */
  lemma AppendedDistinct(sel: seq<FileEntry>, file: FileEntry)
    requires DistinctPaths(sel) && !HasPath(sel, file.path)
    ensures DistinctPaths(sel + [file])
  {
    var r := sel + [file];
    forall i, j | 0 <= i < j < |r|
      ensures r[i].path != r[j].path
    {
      assert r[i] == sel[i];
      if j < |sel| {
        assert r[j] == sel[j];
      }
    }
  }

  /** Adding range entries to a selection of shown entries keeps it within the shown entries. */
  lemma UnionWithinListing(rendered: seq<FileEntry>, sel: seq<FileEntry>, range: seq<FileEntry>)
    requires forall k :: 0 <= k < |sel| ==> HasPath(rendered, sel[k].path)
    requires forall k :: 0 <= k < |range| ==> HasPath(rendered, range[k].path)
    ensures forall k :: 0 <= k < |AddMissing(sel, range)| ==> HasPath(rendered, AddMissing(sel, range)[k].path)
  {
    var added := AddMissing(sel, range);
    AddMissingAppendsNew(sel, range);
    forall k | 0 <= k < |added| ensures HasPath(rendered, added[k].path) {
      if k < |sel| {
        assert added[k] == added[..|sel|][k] == sel[k];
      } else {
        var j :| 0 <= j < |range| && range[j] == added[k];
      }
    }
  }

  /** Clicks never select a path that is not shown. */
  lemma SelectionStaysWithinListing(rendered: seq<FileEntry>, st: Selection, file: FileEntry, keys: Keys)
    requires Valid(st) && WithinListing(rendered, st)
    ensures WithinListing(rendered, SelectFile(rendered, st, file, keys))
  {
    var idx := IndexOfPath(rendered, file.path);
    if idx == -1 {
      assert SelectFile(rendered, st, file, keys) == st;
    } else if keys.shift && st.anchor != -1 {
      ShiftStaysWithinListing(rendered, st, file, keys);
    } else {
      ClickStaysWithinListing(rendered, st, file, keys);
    }
  }

  lemma ShiftStaysWithinListing(rendered: seq<FileEntry>, st: Selection, file: FileEntry, keys: Keys)
    requires Valid(st) && WithinListing(rendered, st)
    requires IndexOfPath(rendered, file.path) != -1 && keys.shift && st.anchor != -1
    ensures WithinListing(rendered, SelectFile(rendered, st, file, keys))
  {
    var idx := IndexOfPath(rendered, file.path);
    var r := SelectFile(rendered, st, file, keys);
    var range := Range(rendered, st.anchor, idx);
    RangeWithinListing(rendered, st.anchor, idx);
    if !keys.ctrl && !keys.meta {
      assert r.selected == range;
    } else {
      assert r.selected == AddMissing(st.selected, range);
      UnionWithinListing(rendered, st.selected, range);
    }
  }

  lemma ClickStaysWithinListing(rendered: seq<FileEntry>, st: Selection, file: FileEntry, keys: Keys)
    requires Valid(st) && WithinListing(rendered, st)
    requires IndexOfPath(rendered, file.path) != -1 && !(keys.shift && st.anchor != -1)
    ensures WithinListing(rendered, SelectFile(rendered, st, file, keys))
  {
    var r := SelectFile(rendered, st, file, keys);
    if keys.ctrl || keys.meta {
      assert r.selected == Toggle(st.selected, file);
      ToggleWithinListing(rendered, st.selected, file);
    } else {
      assert r.selected == [file];
      assert HasPath(rendered, file.path);
    }
  }


  /** With distinct paths on screen, no click ever selects the same path twice. */
  lemma SelectionKeepsPathsDistinct(rendered: seq<FileEntry>, st: Selection, file: FileEntry, keys: Keys)
    requires Valid(st) && DistinctPaths(rendered) && DistinctPaths(st.selected)
    ensures DistinctPaths(SelectFile(rendered, st, file, keys).selected)
  {
    var r := SelectFile(rendered, st, file, keys);
    var idx := IndexOfPath(rendered, file.path);
    if idx != -1 {
      if keys.shift && st.anchor != -1 {
        if !keys.ctrl && !keys.meta {
          assert r.selected == Range(rendered, st.anchor, idx);
          RangeDistinct(rendered, st.anchor, idx);
        }
      } else if keys.ctrl || keys.meta {
        assert r.selected == Toggle(st.selected, file);
        ToggleDistinct(st.selected, file);
      }
    }
  }

  /** Ctrl-clicking an unselected shown file twice gives back the original selected list. */
  lemma CtrlClickTwiceRestores(rendered: seq<FileEntry>, st: Selection, file: FileEntry)
    requires Valid(st) && HasPath(rendered, file.path) && !HasPath(st.selected, file.path)
    ensures var keys := Keys(false, true, false);
      SelectFile(rendered, SelectFile(rendered, st, file, keys), file, keys).selected == st.selected
  {
    var keys := Keys(false, true, false);
    var once := SelectFile(rendered, st, file, keys);
    assert once.selected == st.selected + [file];
    var twice := SelectFile(rendered, once, file, keys);
    var k := IndexOfPath(once.selected, file.path);
    assert once.selected[|st.selected|] == file;
    assert k == |st.selected|;
    assert twice.selected == once.selected[..k] + once.selected[k + 1..];
    assert once.selected[..k] == st.selected;
  }

  /** After a click the anchor still indexes the shown list (or is unset), provided it did before. */
  lemma AnchorStaysInRange(rendered: seq<FileEntry>, st: Selection, file: FileEntry, keys: Keys)
    requires Valid(st) && st.anchor < |rendered|
    ensures var r := SelectFile(rendered, st, file, keys); -1 <= r.anchor < |rendered|
  {
  }
}

=== FILE: text.dfy ===
/**
  String helpers shared by the file manager's path and listing logic.
  Strings are `seq<char>`; case folding covers the ASCII letters only.
 */
module Text {

  /** The file manager treats both `/` and `\` as path separators. */
  predicate IsSep(c: char) {
    c == '/' || c == '\\'
  }

  /** No character of `s` is a path separator. */
  predicate NoSep(s: string) {
    forall i :: 0 <= i < |s| ==> !IsSep(s[i])
  }

  predicate StartsWith(s: string, prefix: string) {
    |prefix| <= |s| && s[..|prefix|] == prefix
  }

  predicate EndsWith(s: string, suffix: string) {
    |suffix| <= |s| && s[|s| - |suffix|..] == suffix
  }

  /** `s` contains the character `c` somewhere (JavaScript `s.includes(c)`). */
  predicate HasChar(s: string, c: char) {
    c in s
  }

  // ---------------------------------------------------------------------------
  // Case folding

  predicate IsUpper(c: char) {
    'A' <= c <= 'Z'
  }

  function LowerChar(c: char): char {
    if IsUpper(c) then (c as int + 32) as char else c
  }

  /** `s.toLowerCase()` restricted to ASCII letters. */
  function ToLower(s: string): (r: string)
    ensures |r| == |s|
    ensures forall i :: 0 <= i < |r| ==> !IsUpper(r[i])
    ensures forall i :: 0 <= i < |r| ==> !IsUpper(s[i]) ==> r[i] == s[i]
    ensures forall i :: 0 <= i < |r| ==> IsUpper(s[i]) ==> r[i] as int == s[i] as int + 32
    ensures forall i :: 0 <= i < |r| ==> (IsSep(r[i]) <==> IsSep(s[i]))
  {
    seq(|s|, i requires 0 <= i < |s| => LowerChar(s[i]))
  }

  lemma ToLowerIdempotent(s: string)
    ensures ToLower(ToLower(s)) == ToLower(s)
  {
  }

  // ---------------------------------------------------------------------------
  // Substring search (`s.includes(t)`)

  /** `t` occurs in `s` starting at position `i`. */
  ghost predicate OccursAt(s: string, t: string, i: int) {
    0 <= i && i + |t| <= |s| && s[i..i + |t|] == t
  }

  /** JavaScript `s.includes(t)`: scans the start positions of `s` left to right. */
  function Contains(s: string, t: string): (b: bool)
    ensures b <==> exists i :: OccursAt(s, t, i)
    decreases |s|
  {
    if StartsWith(s, t) then
      assert OccursAt(s, t, 0);
      true
    else if |s| == 0 then
      false
    else
      var b := Contains(s[1..], t);
      OccursShift(s, t);
      b
  }

  /** An occurrence in `s` past position 0 is an occurrence in `s[1..]`, and back. */
  lemma OccursShift(s: string, t: string)
    requires |s| > 0 && !StartsWith(s, t)
    ensures (exists i :: OccursAt(s, t, i)) <==> (exists i :: OccursAt(s[1..], t, i))
  {
    forall i | OccursAt(s[1..], t, i)
      ensures OccursAt(s, t, i + 1)
    {
      assert s[1..][i..i + |t|] == s[i + 1..i + 1 + |t|];
    }
    if |t| <= |s| {
      assert s[0..|t|] == s[..|t|];
    }
    forall i | OccursAt(s, t, i)
      ensures OccursAt(s[1..], t, i - 1)
    {
      assert s[1..][i - 1..i - 1 + |t|] == s[i..i + |t|];
    }
  }

  /** The empty query is found in every name. */
  lemma ContainsEmpty(s: string)
    ensures Contains(s, "")
  {
    assert OccursAt(s, "", 0);
  }

  // ---------------------------------------------------------------------------
  // Last occurrence of a character

  /** JavaScript `s.lastIndexOf(c)` for a one-character needle: -1 when absent. */
  function LastIndexOf(s: string, c: char): (k: int)
    ensures -1 <= k < |s|
    ensures k >= 0 ==> s[k] == c
    ensures forall j :: k < j < |s| ==> s[j] != c
    ensures k == -1 <==> c !in s
  {
    if |s| == 0 then -1
    else if s[|s| - 1] == c then |s| - 1
    else
      var k := LastIndexOf(s[..|s| - 1], c);
      assert forall j :: k < j < |s| - 1 ==> s[..|s| - 1][j] == s[j];
      k
  }

  /** `Math.max(s.lastIndexOf('/'), s.lastIndexOf('\\'))`: the last separator of either kind. */
  function LastSepIndex(s: string): (k: int)
    ensures -1 <= k < |s|
    ensures k >= 0 ==> IsSep(s[k])
    ensures forall j :: k < j < |s| ==> !IsSep(s[j])
    ensures k == -1 <==> NoSep(s)
  {
    var a := LastIndexOf(s, '/');
    var b := LastIndexOf(s, '\\');
    if a < b then b else a
  }

  // ---------------------------------------------------------------------------
  // Splitting on separators (`s.split(/[\\\/]/)`)

  /** Every piece between separators, empty pieces included, as JavaScript's `split` returns them. */
  function SplitSeps(s: string): (parts: seq<string>)
    ensures |parts| >= 1
  {
    if |s| == 0 then [""]
    else
      var rest := SplitSeps(s[1..]);
      if IsSep(s[0]) then [""] + rest
      else [[s[0]] + rest[0]] + rest[1..]
  }

  /** No piece holds a separator. */
  lemma {:induction false} PiecesHaveNoSep(s: string)
    ensures forall k :: 0 <= k < |SplitSeps(s)| ==> NoSep(SplitSeps(s)[k])
    decreases |s|
  {
    if |s| > 0 {
      PiecesHaveNoSep(s[1..]);
      var rest := SplitSeps(s[1..]);
      var parts := SplitSeps(s);
      if IsSep(s[0]) {
        assert parts == [""] + rest;
        forall k | 1 <= k < |parts| ensures NoSep(parts[k]) {
          assert parts[k] == rest[k - 1];
        }
      } else {
        var first := [s[0]] + rest[0];
        assert NoSep(rest[0]);
        assert first[1..] == rest[0];
        NoSepCons(first);
        assert parts == [first] + rest[1..];
        forall k | 1 <= k < |parts| ensures NoSep(parts[k]) {
          assert parts[k] == rest[k];
        }
      }
    }
  }

  /** A string splits into a single piece exactly when it has no separator, and that piece is the string. */
  lemma {:induction false} SinglePiece(s: string)
    ensures NoSep(s) <==> |SplitSeps(s)| == 1
    ensures NoSep(s) ==> SplitSeps(s) == [s]
    decreases |s|
  {
    if |s| > 0 {
      var t := s[1..];
      SinglePiece(t);
      if NoSep(s) {
        assert NoSep(t) by { NoSepTail(s); }
        HeadTail(s);
      } else if !IsSep(s[0]) {
        if NoSep(t) { NoSepCons(s); }
      }
    }
  }

  /** Glues pieces back together with the separator `c` between consecutive pieces. */
  function JoinWith(parts: seq<string>, c: char): string
    requires |parts| >= 1
  {
    if |parts| == 1 then parts[0] else parts[0] + [c] + JoinWith(parts[1..], c)
  }

  /** Prepending a separator-free run to a string extends its first piece. */
  lemma {:induction false} SplitPrefix(a: string, s: string)
    requires NoSep(a)
    ensures SplitSeps(a + s) == [a + SplitSeps(s)[0]] + SplitSeps(s)[1..]
    decreases |a|
  {
    var x := SplitSeps(s);
    if |a| > 0 {
      var t := a[1..] + s;
      assert a + s == [a[0]] + t;
      SplitPrefix(a[1..], s);
      SplitCons(a[0], t);
      ConsAppend(a, x[0]);
    } else {
      assert a + s == s;
      assert a + x[0] == x[0];
      assert x == [x[0]] + x[1..];
    }
  }

  lemma ConsAppend(a: string, b: string)
    requires |a| > 0
    ensures [a[0]] + (a[1..] + b) == a + b
  {
    assert a == [a[0]] + a[1..];
  }

  /** One step of splitting: a character that is not a separator joins the first piece. */
  lemma SplitCons(c: char, t: string)
    requires !IsSep(c)
    ensures SplitSeps([c] + t) == [[c] + SplitSeps(t)[0]] + SplitSeps(t)[1..]
  {
    assert ([c] + t)[1..] == t;
  }


  /** Splitting undoes joining with any separator, as long as no piece holds a separator. */
  lemma {:induction false} SplitJoin(parts: seq<string>, c: char)
    requires |parts| >= 1 && IsSep(c)
    requires forall k :: 0 <= k < |parts| ==> NoSep(parts[k])
    ensures SplitSeps(JoinWith(parts, c)) == parts
    decreases |parts|
  {
    if |parts| == 1 {
      SinglePiece(parts[0]);
    } else {
      var tail := JoinWith(parts[1..], c);
      SplitJoin(parts[1..], c);
      var cs := [c] + tail;
      assert (cs)[1..] == tail;
      assert SplitSeps(cs) == [""] + SplitSeps(tail);
      assert parts[0] + [c] + tail == parts[0] + cs;
      SplitPrefix(parts[0], cs);
      assert parts[0] + "" == parts[0];
      assert parts == [parts[0]] + parts[1..];
    }
  }

  /** Splitting `s` yields one more piece than `s` has separators. */
  function SepCount(s: string): nat {
    if |s| == 0 then 0 else (if IsSep(s[0]) then 1 else 0) + SepCount(s[1..])
  }

  lemma {:induction false} SplitCount(s: string)
    ensures |SplitSeps(s)| == SepCount(s) + 1
    decreases |s|
  {
    if |s| > 0 {
      SplitCount(s[1..]);
    }
  }

  /** The last piece of `s.split(...)`: what follows the last separator of `s`. */
  function LastPiece(s: string): (r: string)
    ensures NoSep(r)
    ensures EndsWith(s, r)
  {
    var parts := SplitSeps(s);
    LastPieceIsSuffix(s);
    PiecesHaveNoSep(s);
    parts[|parts| - 1]
  }

  lemma {:induction false} LastPieceIsSuffix(s: string)
    ensures s[LastSepIndex(s) + 1..] == SplitSeps(s)[|SplitSeps(s)| - 1]
    decreases |s|
  {
    if |s| > 0 {
      LastPieceIsSuffix(s[1..]);
      LastPieceStep(s);
    } else {
      assert s == "";
      EmptyLastPiece();
    }
  }

  lemma EmptyLastPiece()
    ensures LastSepIndex("") == -1 && SplitSeps("") == [""]
  {
  }

  /** The step of `LastPieceIsSuffix`: the property for the tail gives it for the whole string. */
  lemma LastPieceStep(s: string)
    requires |s| > 0
    requires s[1..][LastSepIndex(s[1..]) + 1..] == SplitSeps(s[1..])[|SplitSeps(s[1..])| - 1]
    ensures s[LastSepIndex(s) + 1..] == SplitSeps(s)[|SplitSeps(s)| - 1]
  {
    if LastSepIndex(s[1..]) >= 0 {
      StepAfterLaterSep(s);
    } else if IsSep(s[0]) {
      StepAfterLeadingSep(s);
    } else {
      StepWithoutSep(s);
    }
  }

  lemma StepAfterLaterSep(s: string)
    requires |s| > 0 && LastSepIndex(s[1..]) >= 0
    requires s[1..][LastSepIndex(s[1..]) + 1..] == SplitSeps(s[1..])[|SplitSeps(s[1..])| - 1]
    ensures s[LastSepIndex(s) + 1..] == SplitSeps(s)[|SplitSeps(s)| - 1]
  {
    var t := s[1..];
    var k' := LastSepIndex(t);
    assert !NoSep(t);
    SplitLast(s);
    LastSepShift(s);
    assert s[k' + 2..] == t[k' + 1..];
  }

  lemma StepAfterLeadingSep(s: string)
    requires |s| > 0 && IsSep(s[0]) && LastSepIndex(s[1..]) == -1
    requires s[1..][LastSepIndex(s[1..]) + 1..] == SplitSeps(s[1..])[|SplitSeps(s[1..])| - 1]
    ensures s[LastSepIndex(s) + 1..] == SplitSeps(s)[|SplitSeps(s)| - 1]
  {
    var t := s[1..];
    assert NoSep(t);
    SplitLast(s);
    LastSepFirst(s);
    assert t[0..] == t;
  }

  lemma StepWithoutSep(s: string)
    requires |s| > 0 && !IsSep(s[0]) && LastSepIndex(s[1..]) == -1
    ensures s[LastSepIndex(s) + 1..] == SplitSeps(s)[|SplitSeps(s)| - 1]
  {
    assert NoSep(s[1..]);
    SplitLast(s);
    NoSepCons(s);
    assert LastSepIndex(s) == -1;
    HeadTail(s);
  }

  /** A leading separator followed by none is the last separator. */
  lemma LastSepFirst(s: string)
    requires |s| > 0 && IsSep(s[0]) && NoSep(s[1..])
    ensures LastSepIndex(s) == 0
  {
  }

  /** The last piece of `s` in terms of the pieces of its tail. */
  lemma SplitLast(s: string)
    requires |s| > 0
    ensures IsSep(s[0]) || !NoSep(s[1..]) ==>
      SplitSeps(s)[|SplitSeps(s)| - 1] == SplitSeps(s[1..])[|SplitSeps(s[1..])| - 1]
    ensures !IsSep(s[0]) && NoSep(s[1..]) ==> SplitSeps(s)[|SplitSeps(s)| - 1] == [s[0]] + s[1..]
  {
    var rest := SplitSeps(s[1..]);
    SplitStep(s);
    if !IsSep(s[0]) {
      SinglePiece(s[1..]);
      if !NoSep(s[1..]) {
        assert rest[1..][|rest| - 2] == rest[|rest| - 1];
      }
    }
  }

  /** One step of splitting, as the definition reads. */
  lemma SplitStep(s: string)
    requires |s| > 0
    ensures IsSep(s[0]) ==> SplitSeps(s) == [""] + SplitSeps(s[1..])
    ensures !IsSep(s[0]) ==> SplitSeps(s) == [[s[0]] + SplitSeps(s[1..])[0]] + SplitSeps(s[1..])[1..]
  {
  }

  lemma HeadTail(s: string)
    requires |s| > 0
    ensures [s[0]] + s[1..] == s[0..] == s
  {
  }

  /** The tail of a string without separators has none. */
  lemma NoSepTail(s: string)
    requires |s| > 0 && NoSep(s)
    ensures NoSep(s[1..])
  {
    forall j | 0 <= j < |s| - 1 ensures !IsSep(s[1..][j]) {
      assert s[1..][j] == s[j + 1];
    }
  }

  /** A string without separators stays so with a non-separator in front. */
  lemma NoSepCons(s: string)
    requires |s| > 0 && !IsSep(s[0]) && NoSep(s[1..])
    ensures NoSep(s)
  {
    forall j | 0 <= j < |s| ensures !IsSep(s[j]) {
      if j > 0 { assert s[j] == s[1..][j - 1]; }
    }
  }

  /** A separator in the tail of `s` is the last separator of `s`, one position further on. */
  lemma LastSepShift(s: string)
    requires |s| > 0 && LastSepIndex(s[1..]) >= 0
    ensures LastSepIndex(s) == LastSepIndex(s[1..]) + 1
  {
    var t := s[1..];
    var k := LastSepIndex(s);
    var k' := LastSepIndex(t);
    assert IsSep(s[k' + 1]) by { assert s[k' + 1] == t[k']; }
    forall j | k' + 1 < j < |s|
      ensures !IsSep(s[j])
    {
      assert s[j] == t[j - 1];
    }
  }

  /** The last piece is exactly what follows the last separator. */
  lemma BaseNameAfterLastSep(s: string)
    ensures LastPiece(s) == s[LastSepIndex(s) + 1..]
  {
    LastPieceIsSuffix(s);
  }

  // ---------------------------------------------------------------------------
  // Decimal rendering (`n.toString()`)

  function DigitChar(d: nat): (c: char)
    requires d < 10
    ensures '0' <= c <= '9'
  {
    ('0' as int + d) as char
  }

  predicate AllDigits(s: string) {
    forall i :: 0 <= i < |s| ==> '0' <= s[i] <= '9'
  }

  /** The number a string of decimal digits denotes. */
  function DecimalValue(s: string): nat
    requires AllDigits(s)
  {
    if |s| == 0 then 0
    else 10 * DecimalValue(s[..|s| - 1]) + (s[|s| - 1] as int - '0' as int)
  }

  /** JavaScript's decimal rendering of a non-negative integer. */
  function NatToString(n: nat): (s: string)
    ensures |s| >= 1 && AllDigits(s)
    ensures DecimalValue(s) == n
    ensures |s| > 1 ==> s[0] != '0'
  {
    if n < 10 then [DigitChar(n)]
    else
      var s := NatToString(n / 10) + [DigitChar(n % 10)];
      assert s[..|s| - 1] == NatToString(n / 10);
      s
  }
}

=== FILE: updates.dfy ===
/**
  The daily update check: the published update list is searched for the entry
  of the running version, and the stored "update available" record is set to
  that entry or removed.
 */
module Updates {
  import opened Common
  import opened Text

  /** An entry of the published update list; `details` stands for the fields the model does not read. */
  datatype UpdateEntry = UpdateEntry(id: string, details: string)

  /** The identifier of the running version's entry: the extension name, `-v`, the version. */
  function CurrentId(version: string): (id: string)
    ensures StartsWith(id, "bautilus-v") && EndsWith(id, version)
    ensures |id| == 10 + |version|
  {
    var id := "bautilus-v" + version;
    assert id[..10] == "bautilus-v";
    assert id[10..] == version;
    id
  }

  /** The index of the first entry with identifier `id`, or -1. */
  function FirstWithId(updates: seq<UpdateEntry>, id: string): (k: int)
    ensures -1 <= k < |updates|
    ensures k >= 0 ==> updates[k].id == id
    ensures forall j :: 0 <= j < |updates| && (k == -1 || j < k) ==> updates[j].id != id
  {
    if |updates| == 0 then -1
    else if updates[0].id == id then 0
    else
      var k := FirstWithId(updates[1..], id);
      assert forall j :: 1 <= j < |updates| ==> updates[j] == updates[1..][j - 1];
      if k == -1 then -1 else k + 1
  }

  /** `updates.find(u => u.id === currentId)`: the first entry with that identifier. */
  function FindEntry(updates: seq<UpdateEntry>, id: string): (r: Option<UpdateEntry>)
    ensures r.Some? ==> r.value.id == id && r.value in updates
    ensures r.Some? ==> exists k :: 0 <= k < |updates| && updates[k] == r.value && FirstWithId(updates, id) == k
    ensures r.None? <==> forall k :: 0 <= k < |updates| ==> updates[k].id != id
  {
    var k := FirstWithId(updates, id);
    if k == -1 then None else Some(updates[k])
  }

  /**
    `checkUpdates`: `fetched` is the update list, or `None` when the request or
    its parsing failed. The result is the new stored record: the matching entry,
    nothing when none matches, and the old record when the check failed.
   */
  function CheckUpdates(stored: Option<UpdateEntry>, fetched: Option<seq<UpdateEntry>>, version: string): (r: Option<UpdateEntry>)
    ensures fetched.None? ==> r == stored
    ensures fetched.Some? && r.Some? ==> r.value.id == CurrentId(version) && r.value in fetched.value
    // the first entry with that identifier, as `find` returns it
    ensures fetched.Some? && r.Some? ==>
      var k := FirstWithId(fetched.value, CurrentId(version));
      0 <= k && r.value == fetched.value[k]
    ensures fetched.Some? ==> (r.None? <==> forall k :: 0 <= k < |fetched.value| ==> fetched.value[k].id != CurrentId(version))
  {
    match fetched
    case None => stored
    case Some(updates) => FindEntry(updates, CurrentId(version))
  }

  /** A stored record never survives a successful check that finds no entry for the version. */
  lemma StaleRecordRemoved(stored: Option<UpdateEntry>, updates: seq<UpdateEntry>, version: string)
    requires forall k :: 0 <= k < |updates| ==> updates[k].id != CurrentId(version)
    ensures CheckUpdates(stored, Some(updates), version) == None
  {
  }

  /** The outcome of a successful check does not depend on what was stored before. */
  lemma CheckForgetsStored(a: Option<UpdateEntry>, b: Option<UpdateEntry>, updates: seq<UpdateEntry>, version: string)
    ensures CheckUpdates(a, Some(updates), version) == CheckUpdates(b, Some(updates), version)
  {
  }

  /** When two entries carry this version's identifier, the earlier one is stored. */
  lemma FirstEntryWins(stored: Option<UpdateEntry>, version: string, first: string, second: string)
    ensures var id := CurrentId(version);
      CheckUpdates(stored, Some([UpdateEntry(id, first), UpdateEntry(id, second)]), version) == Some(UpdateEntry(id, first))
  {
  }

  /** An entry for another version is never chosen, even if its identifier extends this one. */
  lemma OtherVersionIgnored(details: string, version: string, other: string)
    requires other != version
    ensures CheckUpdates(None, Some([UpdateEntry(CurrentId(other), details)]), version) == None
  {
    assert CurrentId(other)[10..] == other;
    assert CurrentId(version)[10..] == version;
  }
}
